=== FILE: README.md ===
# OneNET device client — a Dafny model

This project models the core of a C++ device client for the OneNET IoT
platform. The client signs an access token, connects to the MQTT broker
over TLS, and subscribes to its device topics when the broker starts a fresh
session. The model covers five parts:

- **Token** (`token.dfy`): `BuildToken` and `HmacSha1`.
  - The expiry is now plus 8760 hours. It is cut to whole seconds toward
    zero and rendered in decimal.
  - The resource depends on the auth scope.
  - The signing string is `et\nsha1\nres\n2018-10-31`.
  - The signature is HMAC-SHA1 into a 20-byte buffer, then base64.
  - All five fields are percent-encoded, all or nothing.
  - The token is the query string `version=…&res=…&et=…&method=…&sign=…`.
  - The base64 codec, the URL codec and the HMAC primitive are injected
    function values. So every property holds for any implementation of them.
- **Session** (`session.dfy`): `OneNetClient::Connect` as the sequence of
  observable calls it makes.
  - The calls are log records, the MQTT connect with its options, the
    subscribe, and the endless receive loop.
  - The millisecond clock, the nanosecond clock, whether the CA file can be
    created and opened, and the broker's replies are inputs. The CONNACK's
    session-present flag and connect/subscribe exceptions come from the broker.
  - `BuildCaFile` is modelled too: its file name from the millisecond clock,
    and its failure. `Connect` calls it.
- **Percent** (`percent.dfy`): a reference percent-encoding codec
  (sections 2.1 and 2.3 of RFC 3986). It shows that a URL codec meeting the
  token round-trip hypothesis exists.
- **AnyModel** (`any.dfy`): the type-erased container `cl::Any`.
  - Covers every constructor, both assignments, `reset`, `swap`, `has_value`,
    `type` and the four `any_cast` forms.
  - Containers live in a store keyed by object identity, so self-assignment
    and self-swap are expressible.
- **CommandLine** (`command_line_parser.dfy`): `CommandLineParser`.
  - Registering options, and the base-name rule for mandatory options.
  - The decision `parse` takes: help and exit 0, or report every missing
    mandatory option in order and exit 1, or return the result.
- **Logging** (`logger.dfy`): `Logger`.
  - The level filter, level names including `UNKNOWN`, and the line layout
    `[ts] [TAG  ] msg`.
  - The stream choice. A lemma reads a written line back into its fields.

`Text` (`text.dfy`) holds the shared string helpers:
- split and join, with the split-after-join round trip;
- the `std::to_string` rendering of integers, with its parser;
- `{:<5}` padding.

`Wrappers` holds `Option`, `Result` and `byte`.

## Model

| member | source | states |
|---|---|---|
| Token.TruncDiv | src/onenet_client.cpp:162-164 | The quotient rounds toward zero, as `duration_cast` does, for negative times as well: the remainder has the dividend's sign and is smaller than the divisor |
| Token.ExpirySeconds | src/onenet_client.cpp:161-164 | For every clock reading no more than one year before the epoch, the expiry is the current second plus 31 536 000 |
| Token.ExpiryString | src/onenet_client.cpp:162-164 | `et` parses back to exactly the expiry second |
| Token.Resource | src/onenet_client.cpp:167-169 | The resource always starts with `products/{productId}` |
| Token.ResourceFields | src/onenet_client.cpp:167-169 | Split on `/`, the resource is `products, pid, devices, device` under device-level auth and `products, pid` otherwise (ids without `/`) |
| Token.SigningSecret | src/onenet_client.cpp:172 | The device secret is used under device-level auth, the product secret otherwise |
| Token.SigningString | src/onenet_client.cpp:179-180 | When neither the expiry nor the resource holds a newline, the signing string splits on newlines into exactly the expiry, `sha1`, the resource and `2018-10-31` |
| Token.SigningStringFields | src/onenet_client.cpp:179-180 | Split on newlines, the signing string is exactly the four lines et, `sha1`, res, `2018-10-31` (ids without newlines) |
| Token.HmacSha1 | src/onenet_client.cpp:204-216 | The digest is always 20 bytes, and equals the primitive's output whenever that is 20 bytes |
| Token.FormatToken | src/onenet_client.cpp:197-200 | A token whose fields contain no `&` parses back to exactly those five fields |
| Token.EscapeFields | src/onenet_client.cpp:187-196 | Escaping succeeds iff each of the five escapes succeeds; on success every field is its escape, and on failure the error is `failed to do url escape` |
| Token.BuildToken | src/onenet_client.cpp:158-202 | Fails with `failed to decode secret` iff the chosen secret decodes to no bytes. Fails with `failed to do url escape` iff decoding worked and some field fails to escape. Has no other error. On success the token is the query string over the escaped version, resource, expiry, method and base64 HMAC of the signing string |
| Token.DecodeFailureShortCircuits | src/onenet_client.cpp:172-176 | When the secret does not decode, the result is the decode error whatever the clock, HMAC and URL codec |
| Token.TokenDependsOnExpirySecond | src/onenet_client.cpp:161-164 | Two clock readings with the same expiry second give the same token |
| Token.TokenRoundTrip | src/onenet_client.cpp:158-202 | With a URL codec that never emits `&` and decodes what it encodes, a built token parses and decodes back to the plain fields. Its `et` parses to the expiry second and its `res` is the resource |
| Percent.Escape | include/url_util.h:8-9 | Escaping succeeds exactly on byte strings, fails with `unable to escape` otherwise, and emits only unreserved characters and `%` |
| Percent.EscapeRoundTrip | include/url_util.h:8-11 | Unescaping the escape of a string gives the string back |
| Percent.PercentCodecWellBehaved | include/url_util.h:8-11 | The reference codec meets the hypothesis of the token round trip |
| Session.BuildCaFile | src/onenet_client.cpp:139-156 | Fails with `failed to create ca file` iff the file cannot be created and opened; otherwise it succeeds, and the name is `/dev/shm/onenet_ca_` followed by a decimal that parses back to the millisecond clock |
| Session.CaFileNamesUnique | src/onenet_client.cpp:141-145 | Attempts in different milliseconds use different file names |
| Session.SubscriptionFilters | src/onenet_client.cpp:88-107 | Eight filters, the i-th being `$sys/{pid}/{device}/` followed by the i-th topic in source order |
| Session.FiltersDistinctAndScoped | src/onenet_client.cpp:88-107 | The eight filters are pairwise different and all lie under `$sys/{pid}/{device}/thing/` |
| Session.TokenLogs | src/onenet_client.cpp:172-184 | The token builder logs nothing exactly when the secret fails to decode. Otherwise it logs exactly two debug records: `string to sign = ` with the signing string over the expiry and the resource, then `signature = ` with the base64 HMAC of that string under the decoded secret |
| Session.Connect | src/onenet_client.cpp:53-130 | Every attempt, whatever the clocks, the CA file's fate, the backends and the broker, starts with the `start connecting` record. It ends either in the receive loop or with an ERROR record, and once the receive loop is entered nothing follows it |
| Session.CaFailureAbortsFirst | src/onenet_client.cpp:57-61 | A CA-file failure gives exactly the start record and the ERROR record `failed to create ca file: failed to create ca file`, whatever the backends, clocks and broker |
| Session.TokenFailureAbortsBeforeNetwork | src/onenet_client.cpp:68-72 | A token failure makes no network call and ends with `failed to connect: ` plus the token's error |
| Session.TraceWithToken | src/onenet_client.cpp:55-85 | A successful token gives the start record, two debug records from the token builder, the debug token record and the connect, then the broker phase |
| Session.ConnectsOnceWithToken | src/onenet_client.cpp:74-85 | With a CA file and a token there is exactly one connect, and it is the first network call. It goes to the fixed server with the device name as client id, auto-reconnect, MQTT level 4, the CA file as trust store, the product id as user name and the token as password. Every later call is a subscribe |
| Session.BrokerPhase | src/onenet_client.cpp:84-129 | After the connect no second connect is made. The client subscribes iff the broker reports a fresh session. A successful connect is logged as `connect ok` first. The receive loop is reached iff the connect succeeds and either the session was present or the subscribe succeeds; otherwise the phase ends with the ERROR record carrying the client id and the broker's error |
| Session.ResumedSessionSkipsSubscribe | src/onenet_client.cpp:112-121 | When the broker reports a present session there is no subscribe, and the attempt ends in the receive loop |
| Session.FreshSessionPhase | src/onenet_client.cpp:86-129 | On a fresh session the broker phase holds one subscribe, to the eight filters at QoS 0, before any receive loop; the loop is reached iff the subscribe succeeds |
| Session.FreshSessionSubscribesOnce | src/onenet_client.cpp:86-111 | Over the whole attempt, a fresh session has exactly one subscribe, to the eight filters at QoS 0, and nothing earlier enters the receive loop; the loop is reached iff the subscribe succeeds |
| Session.DebugRecordsOfAttempt | src/onenet_client.cpp:73 | In a successful attempt the three records after the start record are, in order, the string to sign, the signature and the token, each at debug level |
| Session.RoutineRecordsOfAttempt | src/onenet_client.cpp:53-130 | In a successful attempt every record before the receive loop that is above debug level is one of the five fixed progress texts or the connect-failure report with the client id and the broker's error |
| Session.SecretsNotWrittenByDefault | src/onenet_client.cpp:53-130 | In a successful attempt the string to sign, the signature and the token are written in exactly three debug records. Every record before the receive loop that is above debug level is a fixed progress text or the connect-failure report, so none of them carries the token, and a logger at its default level writes none of the three |
| Logging.LevelName | include/logger.h:13-26 | The name is `UNKNOWN` iff the level is none of the four enumerators; every name is 1 to 7 characters with no `]` and no trailing space |
| Logging.LevelNameRoundTrip | include/logger.h:13-26 | Each named level's tag reads back as that level; `UNKNOWN` reads back as no level |
| Logging.LevelsOrdered | include/logger.h:10 | DEBUG < INFO < WARN < ERROR, and these are the only named levels |
| Logging.DefaultLogger | include/logger.h:32 | A logger built without an argument has minimum level INFO |
| Logging.SetMinLevel | include/logger.h:35 | The new minimum level is the given one |
| Logging.StreamFor | include/logger.h:63-68 | Standard error iff the level is WARN or ERROR |
| Logging.Log | include/logger.h:38-69 | A line is written iff the level is at least the minimum. It goes to the level's stream and is `[ts] [TAG  ] msg` plus a newline |
| Logging.Debug | include/logger.h:72-76 | Writes iff the minimum is at most DEBUG, to standard output, with tag `DEBUG` |
| Logging.Info | include/logger.h:78-82 | Writes iff the minimum is at most INFO, to standard output, with tag `INFO` |
| Logging.Warn | include/logger.h:84-88 | Writes iff the minimum is at most WARN, to standard error, with tag `WARN` |
| Logging.Error | include/logger.h:90-94 | Writes iff the minimum is at most ERROR, to standard error, with tag `ERROR` |
| Logging.DefaultLevelFilter | include/logger.h:32-44 | At the default level debug records are dropped and the other three levels are written |
| Logging.LogMonotone | include/logger.h:42-44 | A record written at some level is also written at any higher level |
| Logging.FormatLine | include/logger.h:59-60 | The line is `[`, the timestamp, `] [`, the tag left-aligned and space-padded to at least five columns, `] ` and the message, with nothing else. A line whose timestamp has no `]` and whose tag has neither `]` nor a trailing space reads back as exactly that timestamp, tag and message |
| Logging.LogLineRoundTrip | include/logger.h:59-60 | A written line, without its newline, reads back as its timestamp, level tag and message (timestamps without `]`) |
| Text.PadRight | include/logger.h:60 | The padded tag keeps the tag as its prefix, is at least 5 characters long and is filled with spaces |
| AnyModel.TypeOf | include/any.h:113-117 | The type is `void` iff the container is empty, and otherwise the held value's tag |
| AnyModel.HasValueIffSomeCast | include/any.h:111 | A container has a value iff the pointer cast to some value type yields one |
| AnyModel.MakeEmpty | include/any.h:60 | A default-constructed container is empty with type `void` |
| AnyModel.FromValue | include/any.h:62-71 | A container built from a value holds it under its type tag, and the pointer cast to that type yields it |
| AnyModel.CastPtr | include/any.h:122-142 | The pointer cast is non-null iff the operand is non-null, holds a value and that value's type is the requested one; it then yields the held value |
| AnyModel.CastConstRef | include/any.h:144-154 | The const-reference cast throws `bad_cast` iff the pointer cast would be null, and otherwise yields the same value |
| AnyModel.CastRef | include/any.h:156-165 | The reference cast throws `bad_cast` iff the pointer cast would be null, and otherwise yields the same value |
| AnyModel.AssignThroughRef | include/any.h:156-165 | Writing through the returned reference keeps the type, and a later cast reads the written value |
| AnyModel.CastMove | include/any.h:167-180 | The moving cast throws iff the type differs, leaving the operand untouched. Otherwise it returns the held value and leaves the operand empty |
| AnyModel.CastFormsAgree | include/any.h:122-180 | The four cast forms agree on success and value, and the pointer cast of null is null |
| AnyModel.CopyConstruct | include/any.h:73-77 | The new object holds the source's content and type; nothing else changes |
| AnyModel.MoveConstruct | include/any.h:79-80 | The new object takes the source's content; the source is left empty; nothing else changes |
| AnyModel.MoveAssign | include/any.h:93-100 | Self-move changes nothing. Otherwise the target takes the source's content, the source is left empty, and nothing else changes |
| AnyModel.CopyAssign | include/any.h:82-91 | The target ends with the source's content, the source keeps it, and no other object changes; this includes self-assignment |
| AnyModel.Reset | include/any.h:105 | The object becomes empty with type `void`; nothing else changes |
| AnyModel.Swap | include/any.h:108 | The two objects exchange contents; nothing else changes |
| AnyModel.SelfOperationsAreNoOps | include/any.h:82-108 | Copy self-assignment, move self-assignment and self-swap leave the store unchanged |
| AnyModel.SwapInvolutive | include/any.h:108 | Swapping twice restores the store |
| AnyModel.CopyIsDeep | include/any.h:35-40 | Resetting the source after a copy leaves the copy's content unchanged. The store holds a separate content per object, so this holds by construction rather than checking `clone()` |
| CommandLine.NewParser | include/command_line_parser.h:16-19 | A new parser registers only the help flag and has no mandatory options |
| CommandLine.BaseName | include/command_line_parser.h:30 | The base name is the longest comma-free prefix of the option name |
| CommandLine.ShortBaseName | include/command_line_parser.h:30 | The base name of `c,long` is `c` |
| CommandLine.MandatorySpec | include/command_line_parser.h:24-28 | The spec is the name alone when no value name is given, and otherwise name, comma, value name |
| CommandLine.AddMandatory | include/command_line_parser.h:21-31 | Appends one typed option and records the option's base name as mandatory |
| CommandLine.AddOptional | include/command_line_parser.h:33-36 | Appends exactly one typed option with the given name and description, whose default text parses back to the given integer; the earlier options and the mandatory names are unchanged |
| CommandLine.AddOptionalString | include/command_line_parser.h:38-42 | Appends one option with the given default; mandatory names are unchanged |
| CommandLine.Missing | include/command_line_parser.h:63-70 | A name is reported iff it is mandatory and absent from the result |
| CommandLine.MissingLines | include/command_line_parser.h:67 | One `Error: -- {name} option is required` line per missing name, in order |
| CommandLine.Parse | include/command_line_parser.h:44-56 | Help exits 0 with the help text regardless of other options. Otherwise it exits iff some mandatory option is absent, with code 1 and nothing on standard output, and else returns the result unchanged |
| CommandLine.CheckMandatory | include/command_line_parser.h:59-77 | Exits with code 1 and nothing on standard output iff a mandatory option is absent; otherwise returns the result |
| CommandLine.MissingInOrder | include/command_line_parser.h:63-70 | Missing names are reported in registration order |
| CommandLine.MissingReport | include/command_line_parser.h:59-77 | On missing options, standard error gets one line per missing name in order, then a newline and the help text |
| CommandLine.ClientParser | src/main.cpp:34-39 | The client's parser has the help flag plus four options, and requires `p`, `s`, `d`, `t` in that order |

## Left out

- MQTT, TLS and file I/O. Whether the CA file opens, the broker's replies
  and the clocks are inputs, not effects. The source does not check the
  write of the certificate into the open file, and neither does the model.
- The receive loop is the single event `ConsumeForever`; messages received
  there are not modelled.
  - The loop has no exit in the code, so no cancellation is modelled.
- Session.RoutineRecordsOfAttempt: speaks only of the records before the
  receive loop. The INFO record `receive message, topic = …, payload = …`
  written for each received message is not in the trace.
- Session.SecretsNotWrittenByDefault: its routine-records clause likewise
  covers only the records before the receive loop.
- Exceptions from `consume_message` are not modelled. The catch block is
  modelled only for connect and subscribe failures.
- The broker's printable error text is an opaque string.
- SHA-1, HMAC, base64 and libcurl/httplib escaping are injected functions.
  - OpenSSL's `HMAC` return value and `digest_len` are not read by the code,
    and are not modelled.
  - The OpenSSL base64 encoder's `runtime_error` is not modelled.
- `Percent.Escape`: a reference RFC 3986 codec, not a model of either backend.
  - It does not reproduce the libcurl wrapper's decoder, which builds a C++
    string from a C string and so stops at a decoded NUL byte.
  - It does not reproduce httplib's wider set of unescaped characters.
- Session.Connect: the log level of the client's logger is the build-time
  `CL_ONENET_LOG_LEVEL`. Log records are kept in the trace with their
  levels rather than filtered.
- Token.ExpirySeconds: `system_clock` is taken to tick in nanoseconds and
  is unbounded. The 64-bit overflow of the tick count, about the year 2262,
  is not modelled.
- The validity window is a fixed 8760 hours, as in the code, not a setting.
- Logging.Log: the timestamp text (`{:%Y-%m-%d %H:%M:%S}`) and the
  `fmt::format` message formatting are inputs.
- CommandLine.Parse:
  - cxxopts parsing and its exceptions are not modelled. Neither are the
    help text and duplicate-option errors.
  - The library's result is modelled as a count per name.
  - `exit` is modelled as an outcome.
- AnyModel.CopyIsDeep: the store has no aliasing, so the model assumes,
  rather than shows, that `clone()` gives a copy separate from the source.
- AnyModel: `typeid` is a tag per type; the C++ qualifiers and decay rules
  are taken as already applied.
- `main` is not modelled beyond the parser it builds:
  - signal handling;
  - the shutdown condition variable;
  - the client construction, whose argument list does not match the
    client's constructor.
- `Disconnect` and `UploadProperties` have empty bodies and are not modelled.
- Token lifetime past one year: the token is never rebuilt for automatic
  reconnects. This is noted, not modelled.

=== FILE: any.dfy ===
/** The type-erased value container `cl::Any`: a container is empty or holds
    one value together with the tag of its type. Object identity matters for
    self-assignment, move and swap, so those operations act on a store of
    containers addressed by object identities. Type tags stand for what
    `typeid` returns; `Void` is the tag of `void`, which no held value has. */
module AnyModel {
  import opened Wrappers

  datatype TypeTag = Void | Named(name: string)

  /** The tag of a storable type: a decayed object type, never `void`. */
  type ValueTag = t: TypeTag | t.Named? witness Named("int")

  /** The container's state: `content_` null, or a holder of a `V` tagged with its type. */
  datatype Any<V> = Empty | Holding(tag: ValueTag, value: V)

  /** `std::bad_cast`. */
  datatype BadCast = BadCast

  // ---------------------------------------------------------------------------
  // Observers and construction from a value
  // ---------------------------------------------------------------------------

  /** `has_value()`: whether `content_` is non-null. */
  function HasValue<V>(a: Any<V>): bool
  {
    a.Holding?
  }

  /** `type()`: the tag of the held value, or the `void` tag when empty. */
  function TypeOf<V>(a: Any<V>): (t: TypeTag)
    ensures t == Void <==> !HasValue(a)
    ensures HasValue(a) ==> t == a.tag
  {
    if HasValue(a) then a.tag else Void
  }

  /** A container has a value exactly when the pointer cast to some type
      yields one. */
  lemma HasValueIffSomeCast<V>(a: Any<V>)
    ensures HasValue(a) <==> exists t: ValueTag :: CastPtr(Some(a), t).Some?
  {
    if HasValue(a) {
      assert CastPtr(Some(a), a.tag).Some?;
    }
  }

  /** The default constructor. */
  function MakeEmpty<V>(): (a: Any<V>)
    ensures !HasValue(a) && TypeOf(a) == Void
  {
    Empty
  }

  /** The converting constructor `Any(T&&)`: holds `v` under the tag of its type. */
  function FromValue<V>(tag: ValueTag, v: V): (a: Any<V>)
    ensures HasValue(a) && TypeOf(a) == tag
    ensures CastPtr(Some(a), tag) == Some(v)
  {
    Holding(tag, v)
  }

  // ---------------------------------------------------------------------------
  // any_cast
  // ---------------------------------------------------------------------------

  /** `any_cast<T>(Any*)`: the held value when the operand is a non-null
      pointer to a container holding a `T`; null (`None`) otherwise. */
  function CastPtr<V>(operand: Option<Any<V>>, want: ValueTag): (r: Option<V>)
    ensures r.Some? <==> operand.Some? && HasValue(operand.value) && TypeOf(operand.value) == want
    ensures r.Some? ==> r.value == operand.value.value
  {
    if operand.None? || operand.value.Empty? then None
    else if operand.value.tag == want then Some(operand.value.value)
    else None
  }

  /** `any_cast<T>(const Any&)`: the held value, or `bad_cast` thrown. A
      `const` on `T` is dropped before the pointer form is asked, and tags
      ignore top-level qualifiers, so only the tag matters here. */
  function CastConstRef<V>(operand: Any<V>, want: ValueTag): (r: Result<V, BadCast>)
    ensures r.Failure? <==> CastPtr(Some(operand), want).None?
    ensures r.Success? ==> CastPtr(Some(operand), want) == Some(r.value)
  {
    match CastPtr(Some(operand), want)
    case None => Failure(BadCast)
    case Some(v) => Success(v)
  }

  /** `any_cast<T>(Any&)` read through the returned reference. */
  function CastRef<V>(operand: Any<V>, want: ValueTag): (r: Result<V, BadCast>)
    ensures r.Failure? <==> CastPtr(Some(operand), want).None?
    ensures r.Success? ==> CastPtr(Some(operand), want) == Some(r.value)
  {
    if TypeOf(operand) == want then Success(operand.value) else Failure(BadCast)
  }

  /** `any_cast<T>(Any&)` written through: assigning `v` to the returned
      reference replaces the held value and keeps the tag. */
  function AssignThroughRef<V>(operand: Any<V>, want: ValueTag, v: V): (r: Result<Any<V>, BadCast>)
    ensures r.Failure? <==> CastRef(operand, want).Failure?
    ensures r.Success? ==> TypeOf(r.value) == TypeOf(operand) && CastRef(r.value, want) == Success(v)
  {
    match CastRef(operand, want)
    case Failure(e) => Failure(e)
    case Success(_) => Success(Holding(want, v))
  }

  /** The outcome of `any_cast<T>(Any&&)`: the value or `bad_cast`, and the operand afterwards. */
  datatype MoveCast<V> = MoveCast(result: Result<V, BadCast>, operand: Any<V>)

  /** `any_cast<T>(Any&&)`: throws unless the operand's type is `T`; otherwise
      moves the value out and resets the operand. */
  function CastMove<V>(operand: Any<V>, want: ValueTag): (r: MoveCast<V>)
    ensures r.result.Failure? <==> TypeOf(operand) != want
    ensures r.result.Failure? ==> r.operand == operand
    ensures r.result.Success? ==> r.result.value == operand.value && !HasValue(r.operand)
  {
    if TypeOf(operand) != want then MoveCast(Failure(BadCast), operand)
    else MoveCast(Success(operand.value), Empty)
  }

  /** The reference casts throw exactly when the pointer cast yields null, and
      the moving cast agrees with them on what it returns. */
  lemma CastFormsAgree<V>(a: Any<V>, want: ValueTag)
    ensures CastRef(a, want).Failure? <==> CastPtr(Some(a), want) == None
    ensures CastConstRef(a, want) == CastRef(a, want)
    ensures CastMove(a, want).result == CastRef(a, want)
    ensures CastPtr<V>(None, want) == None
  {
  }

  // ---------------------------------------------------------------------------
  // Construction, assignment, reset and swap on identified objects
  // ---------------------------------------------------------------------------

  type ObjId = nat

  /** The containers alive at one moment, by object identity. */
  type Store<V> = map<ObjId, Any<V>>

  /** `Any(const Any&)`: a new object `id` holding a deep copy of `src`. */
  function CopyConstruct<V>(s: Store<V>, id: ObjId, src: ObjId): (r: Store<V>)
    requires src in s && id !in s
    ensures r.Keys == s.Keys + {id}
    ensures r[id] == s[src] && TypeOf(r[id]) == TypeOf(s[src])
    ensures forall k :: k in s ==> r[k] == s[k]
  {
    s[id := s[src]]
  }

  /** `Any(Any&&)`: a new object `id` takes over the content of `src`, which is left empty. */
  function MoveConstruct<V>(s: Store<V>, id: ObjId, src: ObjId): (r: Store<V>)
    requires src in s && id !in s
    ensures r.Keys == s.Keys + {id}
    ensures r[id] == s[src] && !HasValue(r[src])
    ensures forall k :: k in s && k != src ==> r[k] == s[k]
  {
    s[id := s[src]][src := Empty]
  }

  /** `operator=(Any&&)`: unless it is a self-assignment, `dst` takes over the
      content of `src`, which is left empty. */
  function MoveAssign<V>(s: Store<V>, dst: ObjId, src: ObjId): (r: Store<V>)
    requires dst in s && src in s
    ensures r.Keys == s.Keys
    ensures dst == src ==> r == s
    ensures dst != src ==> r[dst] == s[src] && !HasValue(r[src])
    ensures forall k :: k in s && k != dst && k != src ==> r[k] == s[k]
  {
    if dst != src then s[dst := s[src]][src := Empty] else s
  }

  /** Ending the life of object `id`. */
  function Destroy<V>(s: Store<V>, id: ObjId): (r: Store<V>)
    requires id in s
    ensures r.Keys == s.Keys - {id}
    ensures forall k :: k in r ==> r[k] == s[k]
  {
    map k | k in s && k != id :: s[k]
  }

  /** `operator=(const Any&)` as the source implements it: unless it is a
      self-assignment, copy `src` into a temporary `temp`, move-assign the
      temporary into `dst`, and let the temporary die. */
  function CopyAssign<V>(s: Store<V>, dst: ObjId, src: ObjId, temp: ObjId): (r: Store<V>)
    requires dst in s && src in s && temp !in s
    ensures r.Keys == s.Keys
    ensures r[dst] == s[src] && r[src] == s[src]
    ensures forall k :: k in s && k != dst ==> r[k] == s[k]
  {
    if dst != src then Destroy(MoveAssign(CopyConstruct(s, temp, src), dst, temp), temp)
    else s
  }

  /** `reset()`. */
  function Reset<V>(s: Store<V>, id: ObjId): (r: Store<V>)
    requires id in s
    ensures r.Keys == s.Keys
    ensures !HasValue(r[id]) && TypeOf(r[id]) == Void
    ensures forall k :: k in s && k != id ==> r[k] == s[k]
  {
    s[id := Empty]
  }

  /** `swap(Any&)`. */
  function Swap<V>(s: Store<V>, a: ObjId, b: ObjId): (r: Store<V>)
    requires a in s && b in s
    ensures r.Keys == s.Keys
    ensures r[a] == s[b] && r[b] == s[a]
    ensures forall k :: k in s && k != a && k != b ==> r[k] == s[k]
  {
    s[a := s[b]][b := s[a]]
  }

  /** Self-assignment, in either form, and self-swap change nothing. */
  lemma SelfOperationsAreNoOps<V>(s: Store<V>, x: ObjId, temp: ObjId)
    requires x in s && temp !in s
    ensures CopyAssign(s, x, x, temp) == s
    ensures MoveAssign(s, x, x) == s
    ensures Swap(s, x, x) == s
  {
  }

  /** Swapping twice restores the store. */
  lemma SwapInvolutive<V>(s: Store<V>, a: ObjId, b: ObjId)
    requires a in s && b in s
    ensures Swap(Swap(s, a, b), a, b) == s
  {
  }

  /** A copy is independent of its source: resetting the source afterwards
      leaves the copy with the original content. The store gives every
      object its own content, so this follows from the representation: it
      records the effect of `clone()` but could not tell it apart from a
      shared holder. */
  lemma CopyIsDeep<V>(s: Store<V>, id: ObjId, src: ObjId, want: ValueTag)
    requires src in s && id !in s
    ensures var r := Reset(CopyConstruct(s, id, src), src);
            CastRef(r[id], want) == CastRef(s[src], want)
  {
  }
}

=== FILE: command_line_parser.dfy ===
/** The command-line front end: a list of registered option specifications, a
    list of mandatory base names, and the decision `parse` takes on a parse
    result — print help and exit 0, report every missing mandatory option and
    exit 1, or hand the result back. The option-parsing library itself is an
    input: its parse result is given as the count of each option name, and its
    help text as a string. */
module CommandLine {
  import opened Wrappers
  import opened Text

  /** What the library is told about one option. */
  datatype OptionKind = Flag | Typed | TypedWithDefault(default: string)

  datatype OptionSpec = OptionSpec(spec: string, description: string, kind: OptionKind)

  datatype Parser = Parser(
    name: string,
    description: string,
    options: seq<OptionSpec>,
    mandatory: seq<string>)

  /** The library's parse result, read through `count(name)`. */
  datatype ParseResult = ParseResult(counts: map<string, nat>) {
    function Count(name: string): nat {
      if name in counts then counts[name] else 0
    }
  }

  /** What `parse` ends in: the process exits with a code after writing lines
      to standard output and standard error, or the result is returned. */
  datatype ParseOutcome =
    | Exited(code: int, stdout: seq<string>, stderr: seq<string>)
    | Returned(result: ParseResult)

  const HelpSpec := OptionSpec("h,help", "Print help", Flag)

  /** The constructor: only the help flag is registered. */
  function NewParser(name: string, description: string): (p: Parser)
    ensures p.options == [HelpSpec] && p.mandatory == []
    ensures p.name == name && p.description == description
  {
    Parser(name, description, [HelpSpec], [])
  }

  /** The part of an option name before its first comma, or the whole name. */
  function BaseName(name: string): (base: string)
    ensures |base| <= |name| && base == name[..|base|]
    ensures ',' !in base
    ensures |base| < |name| ==> name[|base|] == ','
    decreases |name|
  {
    if |name| == 0 || name[0] == ',' then ""
    else [name[0]] + BaseName(name[1..])
  }

  /** The specification string handed to the library by `add_mandatory`. */
  function MandatorySpec(name: string, valueName: string): (spec: string)
    ensures valueName == "" ==> spec == name
    ensures valueName != "" ==>
              (|spec| == |name| + 1 + |valueName| && spec[..|name|] == name
               && spec[|name|] == ',' && spec[|name| + 1..] == valueName)
  {
    if valueName == "" then name else name + "," + valueName
  }

  /** `add_mandatory<T>`: registers one typed option and records its base name. */
  function AddMandatory(p: Parser, name: string, description: string, valueName: string): (r: Parser)
    ensures r.options == p.options + [OptionSpec(MandatorySpec(name, valueName), description, Typed)]
    ensures r.mandatory == p.mandatory + [BaseName(name)]
    ensures r.name == p.name && r.description == p.description
  {
    p.(options := p.options + [OptionSpec(MandatorySpec(name, valueName), description, Typed)],
       mandatory := p.mandatory + [BaseName(name)])
  }

  /** `add_optional<T>` for an integer `T`: the default is rendered by `std::to_string`. */
  function AddOptional(p: Parser, name: string, description: string, default: int): (r: Parser)
    ensures r.mandatory == p.mandatory
    ensures r.options == p.options + [OptionSpec(name, description, TypedWithDefault(IntToDecimal(default)))]
    ensures ParseDecimal(r.options[|p.options|].kind.default) == Some(default)
  {
    DecimalRoundTrip(default);
    p.(options := p.options + [OptionSpec(name, description, TypedWithDefault(IntToDecimal(default)))])
  }

  /** `add_optional_string`. */
  function AddOptionalString(p: Parser, name: string, description: string, default: string): (r: Parser)
    ensures r.mandatory == p.mandatory
    ensures r.options == p.options + [OptionSpec(name, description, TypedWithDefault(default))]
  {
    p.(options := p.options + [OptionSpec(name, description, TypedWithDefault(default))])
  }

  /** The mandatory base names the result does not mention, in registration order. */
  function Missing(mandatory: seq<string>, result: ParseResult): (m: seq<string>)
    ensures |m| <= |mandatory|
    ensures forall x :: x in m <==> x in mandatory && result.Count(x) == 0
    decreases |mandatory|
  {
    if |mandatory| == 0 then []
    else
      var rest := Missing(mandatory[1..], result);
      if result.Count(mandatory[0]) == 0 then [mandatory[0]] + rest else rest
  }

  function MissingLine(name: string): string {
    "Error: -- " + name + " option is required"
  }

  /** One error line per missing name, in the same order. */
  function MissingLines(missing: seq<string>): (lines: seq<string>)
    ensures |lines| == |missing|
    ensures forall i :: 0 <= i < |missing| ==> lines[i] == MissingLine(missing[i])
  {
    if |missing| == 0 then [] else [MissingLine(missing[0])] + MissingLines(missing[1..])
  }

  /** `parse`, after the library has produced `result`: help wins over every
      other check, then each missing mandatory option is reported. */
  function Parse(p: Parser, result: ParseResult, helpText: string): (o: ParseOutcome)
    ensures result.Count("help") > 0 ==> o == Exited(0, [helpText], [])
    ensures result.Count("help") == 0 ==>
              (o.Exited? <==> exists x :: x in p.mandatory && result.Count(x) == 0)
    ensures result.Count("help") == 0 && o.Exited? ==> o.code == 1 && o.stdout == []
    ensures o.Returned? ==> o.result == result
  {
    if result.Count("help") > 0 then Exited(0, [helpText], [])
    else CheckMandatory(p, result, helpText)
  }

  /** `check_mandatory_options`. */
  function CheckMandatory(p: Parser, result: ParseResult, helpText: string): (o: ParseOutcome)
    ensures o.Exited? <==> exists x :: x in p.mandatory && result.Count(x) == 0
    ensures o.Exited? ==> o.code == 1 && o.stdout == []
    ensures o.Returned? ==> o.result == result
  {
    var missing := Missing(p.mandatory, result);
    if |missing| > 0 then
      assert missing[0] in missing;
      Exited(1, [], MissingLines(missing) + ["\n " + helpText])
    else
      Returned(result)
  }

  /** Reporting follows registration order: the missing names of a list
      split in two are those of the first part followed by those of the second. */
  lemma {:induction false} MissingInOrder(a: seq<string>, b: seq<string>, result: ParseResult)
    ensures Missing(a + b, result) == Missing(a, result) + Missing(b, result)
    decreases |a|
  {
    if |a| == 0 {
      assert a + b == b;
    } else {
      assert (a + b)[1..] == a[1..] + b;
      MissingInOrder(a[1..], b, result);
    }
  }

  /** When mandatory options are missing, standard error gets exactly one line
      per missing option, in registration order, then the help text. */
  lemma MissingReport(p: Parser, result: ParseResult, helpText: string)
    requires result.Count("help") == 0
    requires exists x :: x in p.mandatory && result.Count(x) == 0
    ensures var m := Missing(p.mandatory, result);
            var o := Parse(p, result, helpText);
            o.Exited? && o.code == 1
            && |o.stderr| == |m| + 1
            && (forall i :: 0 <= i < |m| ==> o.stderr[i] == MissingLine(m[i]))
            && o.stderr[|m|] == "\n " + helpText
  {
  }

  /** A short-and-long option name `c,long` has the one-letter base name `c`. */
  lemma ShortBaseName(name: string)
    requires |name| >= 2 && name[0] != ',' && name[1] == ','
    ensures BaseName(name) == [name[0]]
  {
  }

  predicate IsShortLongName(name: string) {
    |name| >= 2 && name[0] != ',' && name[1] == ','
  }

  /** Registering four `c,long` options without value names appends four
      options and records the four one-letter base names in order. */
  lemma AddFourShortMandatory(p: Parser, n1: string, d1: string, n2: string, d2: string,
                              n3: string, d3: string, n4: string, d4: string)
    requires |p.options| >= 1
    requires IsShortLongName(n1) && IsShortLongName(n2) && IsShortLongName(n3) && IsShortLongName(n4)
    ensures var r := AddMandatory(AddMandatory(AddMandatory(AddMandatory(p, n1, d1, ""), n2, d2, ""), n3, d3, ""), n4, d4, "");
            && r.mandatory == p.mandatory + [[n1[0]], [n2[0]], [n3[0]], [n4[0]]]
            && |r.options| == |p.options| + 4 && r.options[0] == p.options[0]
  {
    ShortBaseName(n1);
    ShortBaseName(n2);
    ShortBaseName(n3);
    ShortBaseName(n4);
  }

  /** The parser `main` builds: the help flag plus the four credentials,
      each mandatory under its one-letter name. */
  function ClientParser(): (p: Parser)
    ensures p.mandatory == ["p", "s", "d", "t"]
    ensures |p.options| == 5 && p.options[0] == HelpSpec
  {
    var p0 := NewParser("onenet", "onenet client");
    AddFourShortMandatory(p0, "p,product-id", "product id", "s,product-secret", "product secret",
                          "d,device-name", "device name", "t,device-secret", "device secret");
    AddMandatory(AddMandatory(AddMandatory(AddMandatory(p0,
      "p,product-id", "product id", ""),
      "s,product-secret", "product secret", ""),
      "d,device-name", "device name", ""),
      "t,device-secret", "device secret", "")
  }
}

=== FILE: logger.dfy ===
/** The console logger: a minimum-level filter, a level tag, the line layout
    `[timestamp] [TAG  ] message` and the choice between standard output and
    standard error. The clock reading and the message formatting are inputs. */
module Logging {
  import opened Wrappers
  import opened Text

  /** `enum class LogLevel` has `int` as its underlying type, so a cast such as
      `(LogLevel)7` yields a level outside the four named ones. */
  newtype LogLevel = x: int | -0x8000_0000 <= x < 0x8000_0000

  const DEBUG: LogLevel := 0
  const INFO: LogLevel := 1
  const WARN: LogLevel := 2
  const ERROR: LogLevel := 3

  predicate IsNamedLevel(level: LogLevel) {
    DEBUG <= level <= ERROR
  }

  /** LogLevelToString. */
  function LevelName(level: LogLevel): (name: string)
    ensures name == "UNKNOWN" <==> !IsNamedLevel(level)
    ensures 1 <= |name| <= 7 && ']' !in name && name[|name| - 1] != ' '
  {
    if level == DEBUG then "DEBUG"
    else if level == INFO then "INFO"
    else if level == WARN then "WARN"
    else if level == ERROR then "ERROR"
    else "UNKNOWN"
  }

  /** The level a tag names, if any: the reading direction of `LevelName`. */
  function LevelFromName(name: string): Option<LogLevel>
  {
    if name == "DEBUG" then Some(DEBUG)
    else if name == "INFO" then Some(INFO)
    else if name == "WARN" then Some(WARN)
    else if name == "ERROR" then Some(ERROR)
    else None
  }

  /** The four levels are strictly ordered by severity. */
  lemma LevelsOrdered()
    ensures DEBUG < INFO < WARN < ERROR
    ensures forall l: LogLevel :: IsNamedLevel(l) <==> l == DEBUG || l == INFO || l == WARN || l == ERROR
  {
  }

  /** Each named level has its own tag, and the tag gives the level back. */
  lemma LevelNameRoundTrip(level: LogLevel)
    ensures IsNamedLevel(level) ==> LevelFromName(LevelName(level)) == Some(level)
    ensures !IsNamedLevel(level) ==> LevelFromName(LevelName(level)) == None
  {
  }

  datatype Stream = Stdout | Stderr

  /** One write: the stream and the text written to it, newline included. */
  datatype Output = Output(stream: Stream, text: string)

  datatype Logger = Logger(minLevel: LogLevel)

  /** A logger constructed without an argument. */
  function DefaultLogger(): (l: Logger)
    ensures l.minLevel == INFO
  {
    Logger(INFO)
  }

  function SetMinLevel(l: Logger, level: LogLevel): (r: Logger)
    ensures r.minLevel == level
  {
    l.(minLevel := level)
  }

  /** The stream a record at `level` goes to. */
  function StreamFor(level: LogLevel): (s: Stream)
    ensures s == Stderr <==> level == WARN || level == ERROR
  {
    if level == ERROR || level == WARN then Stderr else Stdout
  }

  /** The record layout, before the trailing newline: the bracketed
      timestamp, the tag left-aligned in a field of at least five columns,
      and the message. A timestamp without `]` and a tag without `]` or a
      trailing space can be read back. */
  function FormatLine(timestamp: string, tag: string, message: string): (line: string)
    ensures var t := |timestamp|;
            var w := if |tag| >= 5 then |tag| else 5;
            && |line| == t + w + 6 + |message|
            && line[..t + 4] == "[" + timestamp + "] ["
            && line[t + 4..t + 4 + |tag|] == tag
            && (forall i :: t + 4 + |tag| <= i < t + 4 + w ==> line[i] == ' ')
            && line[t + 4 + w..t + 6 + w] == "] "
            && line[t + 6 + w..] == message
    ensures ']' !in timestamp && ']' !in tag && (|tag| == 0 || tag[|tag| - 1] != ' ')
            ==> ParseLine(line) == Some(LineFields(timestamp, tag, message))
  {
    var line := "[" + timestamp + "] [" + PadRight(tag, 5) + "] " + message;
    FieldLayout(timestamp, tag, message);
    if ']' in timestamp || ']' in tag || (|tag| > 0 && tag[|tag| - 1] == ' ') then line
    else
      FieldsRoundTrip(timestamp, tag, message);
      line
  }

  /** Where each part of a record line sits. */
  lemma FieldLayout(timestamp: string, tag: string, message: string)
    ensures var line := "[" + timestamp + "] [" + PadRight(tag, 5) + "] " + message;
            var t := |timestamp|;
            var w := if |tag| >= 5 then |tag| else 5;
            && |line| == t + w + 6 + |message|
            && line[..t + 4] == "[" + timestamp + "] ["
            && line[t + 4..t + 4 + |tag|] == tag
            && (forall i :: t + 4 + |tag| <= i < t + 4 + w ==> line[i] == ' ')
            && line[t + 4 + w..t + 6 + w] == "] "
            && line[t + 6 + w..] == message
  {
    var padded := PadRight(tag, 5);
    var head := "[" + timestamp + "] [";
    var line := head + padded + "] " + message;
    var t := |timestamp|;
    var w := |padded|;
    assert |head| == t + 4;
    assert line == head + (padded + ("] " + message));
    assert line[..t + 4] == head;
    assert line[t + 4..t + 4 + w] == padded;
    assert line[t + 4..t + 4 + |tag|] == padded[..|tag|];
    forall i | t + 4 + |tag| <= i < t + 4 + w
      ensures line[i] == ' '
    {
      assert line[i] == padded[i - t - 4];
    }
    assert line[t + 4 + w..] == "] " + message;
    assert line[t + 4 + w..t + 6 + w] == "] ";
    assert line[t + 6 + w..] == message;
  }

  /** Logger::Log: nothing below the minimum level, otherwise one line. */
  function Log(l: Logger, level: LogLevel, timestamp: string, message: string): (r: Option<Output>)
    ensures r.Some? <==> level >= l.minLevel
    ensures r.Some? ==> r.value.stream == StreamFor(level)
    ensures r.Some? ==> r.value.text == FormatLine(timestamp, LevelName(level), message) + "\n"
  {
    if level < l.minLevel then None
    else Some(Output(StreamFor(level), FormatLine(timestamp, LevelName(level), message) + "\n"))
  }

  function Debug(l: Logger, timestamp: string, message: string): (r: Option<Output>)
    ensures r.Some? <==> l.minLevel <= DEBUG
    ensures r.Some? ==> r.value == Output(Stdout, FormatLine(timestamp, "DEBUG", message) + "\n")
  {
    Log(l, DEBUG, timestamp, message)
  }

  function Info(l: Logger, timestamp: string, message: string): (r: Option<Output>)
    ensures r.Some? <==> l.minLevel <= INFO
    ensures r.Some? ==> r.value == Output(Stdout, FormatLine(timestamp, "INFO", message) + "\n")
  {
    Log(l, INFO, timestamp, message)
  }

  function Warn(l: Logger, timestamp: string, message: string): (r: Option<Output>)
    ensures r.Some? <==> l.minLevel <= WARN
    ensures r.Some? ==> r.value == Output(Stderr, FormatLine(timestamp, "WARN", message) + "\n")
  {
    Log(l, WARN, timestamp, message)
  }

  function Error(l: Logger, timestamp: string, message: string): (r: Option<Output>)
    ensures r.Some? <==> l.minLevel <= ERROR
    ensures r.Some? ==> r.value == Output(Stderr, FormatLine(timestamp, "ERROR", message) + "\n")
  {
    Log(l, ERROR, timestamp, message)
  }

  /** Under the default minimum level, debug records are dropped and every
      other named level is written. */
  lemma DefaultLevelFilter(timestamp: string, message: string)
    ensures Debug(DefaultLogger(), timestamp, message) == None
    ensures Info(DefaultLogger(), timestamp, message).Some?
    ensures Warn(DefaultLogger(), timestamp, message).Some?
    ensures Error(DefaultLogger(), timestamp, message).Some?
  {
  }

  /** Raising the severity never suppresses a record that was written. */
  lemma LogMonotone(l: Logger, a: LogLevel, b: LogLevel, ts: string, msg: string)
    requires a <= b
    ensures Log(l, a, ts, msg).Some? ==> Log(l, b, ts, msg).Some?
  {
  }

  // ---------------------------------------------------------------------------
  // Reading a record back
  // ---------------------------------------------------------------------------

  /** Position of the first `c` in `s`. */
  function IndexOf(s: string, c: char): (r: Option<nat>)
    ensures r.Some? ==> r.value < |s| && s[r.value] == c && c !in s[..r.value]
    ensures r.None? ==> c !in s
    decreases |s|
  {
    if |s| == 0 then None
    else if s[0] == c then Some(0)
    else
      match IndexOf(s[1..], c)
      case None => None
      case Some(i) => assert s[..i + 1] == [s[0]] + s[1..][..i]; Some(i + 1)
  }

  lemma IndexOfFirst(a: string, b: string, c: char)
    requires c !in a && |b| > 0 && b[0] == c
    ensures IndexOf(a + b, c) == Some(|a|)
  {
    var s := a + b;
    assert s[|a|] == c;
  }

  datatype LineFields = LineFields(timestamp: string, tag: string, message: string)

  /** Reads `TAG  ] message` into the trimmed tag and the message. */
  function ParseTagAndMessage(tail: string): Option<(string, string)>
  {
    match IndexOf(tail, ']')
    case None => None
    case Some(j) =>
      if !StartsWith(tail[j..], "] ") then None
      else Some((TrimRight(tail[..j]), tail[j + 2..]))
  }

  /** Reads the timestamp, the tag and the message out of a record line. */
  function ParseLine(line: string): Option<LineFields>
  {
    if |line| == 0 || line[0] != '[' then None
    else
      var rest := line[1..];
      match IndexOf(rest, ']')
      case None => None
      case Some(i) =>
        var after := rest[i..];
        if !StartsWith(after, "] [") then None
        else
          match ParseTagAndMessage(after[3..])
          case None => None
          case Some(tm) => Some(LineFields(rest[..i], tm.0, tm.1))
  }

  lemma TagAndMessageRoundTrip(tag: string, message: string)
    requires ']' !in tag && (|tag| == 0 || tag[|tag| - 1] != ' ')
    ensures ParseTagAndMessage(PadRight(tag, 5) + "] " + message) == Some((tag, message))
  {
    var padded := PadRight(tag, 5);
    var tail := padded + "] " + message;
    assert ']' !in padded by {
      forall k | 0 <= k < |padded|
        ensures padded[k] != ']'
      {
        if k < |tag| {
          assert padded[k] == padded[..|tag|][k] == tag[k];
        }
      }
    }
    assert tail == padded + ("] " + message);
    IndexOfFirst(padded, "] " + message, ']');
    assert tail[..|padded|] == padded;
    assert tail[|padded|..] == "] " + message;
    TrimPadRight(tag, 5);
  }

  /** The bracketed layout gives back its timestamp, tag and message,
      provided neither timestamp nor tag holds a closing bracket and the tag
      has no trailing space. */
  lemma FieldsRoundTrip(timestamp: string, tag: string, message: string)
    requires ']' !in timestamp && ']' !in tag && (|tag| == 0 || tag[|tag| - 1] != ' ')
    ensures ParseLine("[" + timestamp + "] [" + PadRight(tag, 5) + "] " + message)
         == Some(LineFields(timestamp, tag, message))
  {
    var tail := PadRight(tag, 5) + "] " + message;
    assert "[" + timestamp + "] [" + PadRight(tag, 5) + "] " + message == "[" + timestamp + "] [" + tail;
    TimestampRoundTrip(timestamp, tail);
    TagAndMessageRoundTrip(tag, message);
  }

  /** The bracketed timestamp comes back whole, and the rest of the line is
      read as the tag and the message. */
  lemma TimestampRoundTrip(timestamp: string, tail: string)
    requires ']' !in timestamp
    ensures ParseLine("[" + timestamp + "] [" + tail)
         == match ParseTagAndMessage(tail)
            case None => None
            case Some(tm) => Some(LineFields(timestamp, tm.0, tm.1))
  {
    var line := "[" + timestamp + "] [" + tail;
    var rest := line[1..];
    assert rest == timestamp + ("] [" + tail);
    IndexOfFirst(timestamp, "] [" + tail, ']');
    var after := rest[|timestamp|..];
    assert after == "] [" + tail;
    assert after[3..] == tail;
    assert rest[..|timestamp|] == timestamp;
  }

  /** Every written record reads back as the timestamp, level and message it was given. */
  lemma LogLineRoundTrip(l: Logger, level: LogLevel, timestamp: string, message: string)
    requires ']' !in timestamp
    requires level >= l.minLevel
    ensures Log(l, level, timestamp, message).Some?
    ensures var text := Log(l, level, timestamp, message).value.text;
            ParseLine(text[..|text| - 1]) == Some(LineFields(timestamp, LevelName(level), message))
  {
    var line := FormatLine(timestamp, LevelName(level), message);
    assert (line + "\n")[..|line|] == line;
  }
}

=== FILE: percent.dfy ===
/** A reference URL codec in the manner of libcurl's `curl_easy_escape` and
    `curl_easy_unescape`: every byte outside the unreserved set of section
    2.3 of RFC 3986 becomes `%` and two upper-case hex digits (section 2.1),
    and decoding turns each well-formed `%XX` back into its byte. Strings
    here hold bytes, so a character above 255 cannot be escaped. It shows
    that the well-behavedness the token round trip asks of a URL codec is
    met by a real one. */
module Percent {
  import opened Wrappers
  import opened Token

  const EscapeError := "unable to escape"

  /** `ALPHA / DIGIT / "-" / "." / "_" / "~"`. */
  predicate IsUnreserved(c: char) {
    ('A' <= c <= 'Z') || ('a' <= c <= 'z') || ('0' <= c <= '9') || c == '-' || c == '.' || c == '_' || c == '~'
  }

  const HexDigits := "0123456789ABCDEF"

  function HexDigit(n: nat): (c: char)
    requires n < 16
    ensures c == HexDigits[n]
  {
    HexDigits[n]
  }

  /** The value of a hex digit of either case. */
  function HexValue(c: char): (r: Option<nat>)
    ensures r.Some? ==> r.value < 16
  {
    if '0' <= c <= '9' then Some(c as int - '0' as int)
    else if 'A' <= c <= 'F' then Some(c as int - 'A' as int + 10)
    else if 'a' <= c <= 'f' then Some(c as int - 'a' as int + 10)
    else None
  }

  lemma HexRoundTrip(n: nat)
    requires n < 16
    ensures HexValue(HexDigit(n)) == Some(n)
  {
  }

  /** The encoding of one character. */
  function EscapeChar(c: char): (r: Result<string, string>)
    ensures r.Success? <==> (c as int) < 256
    ensures r.Success? && IsUnreserved(c) ==> r.value == [c]
    ensures r.Success? && !IsUnreserved(c) ==>
              |r.value| == 3 && r.value[0] == '%' && HexValue(r.value[1]).Some? && HexValue(r.value[2]).Some?
              && HexValue(r.value[1]).value * 16 + HexValue(r.value[2]).value == c as int
  {
    if IsUnreserved(c) then Success([c])
    else if (c as int) < 256 then
      HexRoundTrip((c as int) / 16);
      HexRoundTrip((c as int) % 16);
      Success(['%', HexDigit((c as int) / 16), HexDigit((c as int) % 16)])
    else Failure(EscapeError)
  }

  predicate IsByteString(s: string) {
    forall i :: 0 <= i < |s| ==> (s[i] as int) < 256
  }

  /** Percent-encoding: succeeds exactly on byte strings; its output holds
      only unreserved characters and `%`. */
  function Escape(s: string): (r: Result<string, string>)
    ensures r.Success? <==> IsByteString(s)
    ensures r.Failure? ==> r.error == EscapeError
    ensures r.Success? ==> forall i :: 0 <= i < |r.value| ==> IsUnreserved(r.value[i]) || r.value[i] == '%'
    decreases |s|
  {
    if |s| == 0 then Success("")
    else
      match EscapeChar(s[0])
      case Failure(e) => Failure(e)
      case Success(head) =>
        match Escape(s[1..])
        case Failure(e) =>
          assert !IsByteString(s) by {
            var i :| 0 <= i < |s[1..]| && (s[1..][i] as int) >= 256;
            assert s[i + 1] == s[1..][i];
          }
          Failure(e)
        case Success(tail) =>
          assert IsByteString(s) by {
            forall i | 0 <= i < |s|
              ensures (s[i] as int) < 256
            {
              if i > 0 {
                assert s[i] == s[1..][i - 1];
              }
            }
          }
          Success(head + tail)
  }

  /** Percent-decoding: a `%` followed by two hex digits is one byte; every
      other character stands for itself. */
  function Unescape(s: string): (r: Result<string, string>)
    ensures r.Success?
    decreases |s|
  {
    if |s| == 0 then Success("")
    else if s[0] == '%' && |s| >= 3 && HexValue(s[1]).Some? && HexValue(s[2]).Some? then
      var c := (HexValue(s[1]).value * 16 + HexValue(s[2]).value) as char;
      Success([c] + Unescape(s[3..]).value)
    else Success([s[0]] + Unescape(s[1..]).value)
  }

  /** Decoding consumes the encoding of one character and nothing more. */
  lemma UnescapeOneChar(c: char, rest: string)
    requires EscapeChar(c).Success?
    ensures Unescape(EscapeChar(c).value + rest) == Success([c] + Unescape(rest).value)
  {
    var enc := EscapeChar(c).value;
    var s := enc + rest;
    if IsUnreserved(c) {
      assert s[0] == c && s[1..] == rest;
    } else {
      assert s[0] == '%' && s[1] == enc[1] && s[2] == enc[2];
      assert s[3..] == rest;
    }
  }

  /** Decoding undoes encoding. */
  lemma {:induction false} EscapeRoundTrip(s: string)
    requires IsByteString(s)
    ensures Escape(s).Success? && Unescape(Escape(s).value) == Success(s)
    decreases |s|
  {
    if |s| > 0 {
      var head := EscapeChar(s[0]).value;
      var tail := Escape(s[1..]).value;
      EscapeRoundTrip(s[1..]);
      UnescapeOneChar(s[0], tail);
      assert [s[0]] + s[1..] == s;
    }
  }

  /** The encoding holds no `&`, so encoded fields never split a token. */
  lemma EscapeHasNoAmpersand(s: string)
    requires IsByteString(s)
    ensures Escape(s).Success? && '&' !in Escape(s).value
  {
  }

  /** The reference codec as a `UrlUtil`. */
  function PercentCodec(): UrlCodec
  {
    UrlCodec(Escape, Unescape)
  }

  /** The reference codec never produces `&` and decodes what it encodes. */
  lemma PercentCodecWellBehaved()
    ensures WellBehaved(PercentCodec())
  {
    forall s | PercentCodec().escape(s).Success?
      ensures '&' !in PercentCodec().escape(s).value
      ensures PercentCodec().unescape(PercentCodec().escape(s).value) == Success(s)
    {
      EscapeRoundTrip(s);
      EscapeHasNoAmpersand(s);
    }
  }
}

=== FILE: session.dfy ===
/** `OneNetClient::Connect` as the sequence of observable calls it makes: log
    records, the MQTT connect, the subscribe, and entry into the endless
    receive loop. What the outside world answers — whether the CA file could
    be written, and the broker's replies to connect and subscribe — is an
    input, so every branch of the source is reachable. */
module Session {
  import opened Wrappers
  import opened Text
  import opened Logging
  import opened Token

  const ServerUrl := "mqtts://mqttstls.heclouds.com:8883"

  /** MQTT 3.1.1 is protocol level 4 (section 3.1.2.2 of MQTT 3.1.1). */
  const MqttVersion := 4

  const CaFilePrefix := "/dev/shm/onenet_ca_"

  /** The connect options the client hands to the MQTT library. */
  datatype ConnectOptions = ConnectOptions(
    automaticReconnect: bool,
    mqttVersion: int,
    trustStore: string,
    userName: string,
    password: string)

  datatype Event =
    | LogCall(level: LogLevel, message: string)
    | MqttConnect(serverUri: string, clientId: string, options: ConnectOptions)
    | MqttSubscribe(filters: seq<string>, qos: seq<int>)
    | ConsumeForever

  /** The broker's answers: the CONNACK's Session Present flag (section
      3.2.2.2 of MQTT 3.1.1) or the printable error of the exception thrown by
      `connect`, and the outcome of `subscribe`. */
  datatype Broker = Broker(connack: Result<bool, string>, subscribeReply: Result<(), string>)

  // ---------------------------------------------------------------------------
  // CA file
  // ---------------------------------------------------------------------------

  /** `BuildCaFile`: the file is named after the current time in milliseconds;
      `created` says whether it could be created and opened. The write of the
      certificate into the open file is not checked. */
  function BuildCaFile(nowMillis: int, created: bool): (r: Result<string, string>)
    ensures !created <==> r == Failure("failed to create ca file")
    ensures created <==> r.Success?
    ensures r.Success? ==> StartsWith(r.value, CaFilePrefix)
                           && ParseDecimal(r.value[|CaFilePrefix|..]) == Some(nowMillis)
  {
    var name := CaFilePrefix + IntToDecimal(nowMillis);
    assert name[..|CaFilePrefix|] == CaFilePrefix;
    assert name[|CaFilePrefix|..] == IntToDecimal(nowMillis);
    DecimalRoundTrip(nowMillis);
    if !created then Failure("failed to create ca file") else Success(name)
  }

  /** Two attempts in different milliseconds use different files. */
  lemma CaFileNamesUnique(ms1: int, ms2: int)
    requires ms1 != ms2
    ensures BuildCaFile(ms1, true).value != BuildCaFile(ms2, true).value
  {
  }

  // ---------------------------------------------------------------------------
  // Topic filters
  // ---------------------------------------------------------------------------

  const TopicSuffixes: seq<string> := [
    "thing/property/post/reply",
    "thing/property/set",
    "thing/property/desired/get/reply",
    "thing/property/desired/delete/reply",
    "thing/property/get",
    "thing/event/post/reply",
    "thing/sub/property/get",
    "thing/sub/property/set"
  ]

  function TopicPrefix(productId: string, deviceName: string): string
  {
    "$sys/" + productId + "/" + deviceName + "/"
  }

  /** The filters subscribed to on a fresh session. */
  function SubscriptionFilters(productId: string, deviceName: string): (filters: seq<string>)
    ensures |filters| == |TopicSuffixes| == 8
    ensures forall i :: 0 <= i < 8 ==> filters[i] == TopicPrefix(productId, deviceName) + TopicSuffixes[i]
  {
    seq(8, i requires 0 <= i < 8 => TopicPrefix(productId, deviceName) + TopicSuffixes[i])
  }

  lemma SuffixesDistinct()
    ensures forall i, j :: 0 <= i < j < 8 ==> TopicSuffixes[i] != TopicSuffixes[j]
  {
    var t := TopicSuffixes;
    // The character after `thing/` separates property, event and sub topics.
    assert t[0][6] == t[1][6] == t[2][6] == t[3][6] == t[4][6] == 'p';
    assert t[5][6] == 'e' && t[6][6] == t[7][6] == 's';
    // Property topics differ in length, except `set` and `get`.
    assert |t[0]| == 25 && |t[1]| == 18 && |t[2]| == 32 && |t[3]| == 35 && |t[4]| == 18;
    assert t[1][15] == 's' && t[4][15] == 'g';
    assert t[6][19] == 'g' && t[7][19] == 's';
  }

  /** The eight filters are pairwise different and all lie under the
      device's `$sys/{product}/{device}/thing/` namespace. */
  lemma FiltersDistinctAndScoped(productId: string, deviceName: string)
    ensures var filters := SubscriptionFilters(productId, deviceName);
            && (forall i, j :: 0 <= i < j < 8 ==> filters[i] != filters[j])
            && (forall i :: 0 <= i < 8 ==> StartsWith(filters[i], TopicPrefix(productId, deviceName) + "thing/"))
  {
    var prefix := TopicPrefix(productId, deviceName);
    var filters := SubscriptionFilters(productId, deviceName);
    SuffixesDistinct();
    forall i, j | 0 <= i < j < 8
      ensures filters[i] != filters[j]
    {
      assert filters[i][|prefix|..] == TopicSuffixes[i];
      assert filters[j][|prefix|..] == TopicSuffixes[j];
    }
    forall i | 0 <= i < 8
      ensures StartsWith(filters[i], prefix + "thing/")
    {
      assert TopicSuffixes[i][..6] == "thing/";
      assert filters[i] == prefix + TopicSuffixes[i];
      assert filters[i][..|prefix| + 6] == prefix + TopicSuffixes[i][..6];
    }
  }

  /** One QoS 0 request (at most once, section 4.3.1 of MQTT 3.1.1) per filter. */
  function ZeroQos(n: nat): (qos: seq<int>)
    ensures |qos| == n && forall i :: 0 <= i < n ==> qos[i] == 0
  {
    seq(n, _ => 0)
  }

  // ---------------------------------------------------------------------------
  // Connect
  // ---------------------------------------------------------------------------

  /** A run that ends in the receive loop or in an error record, and enters
      the receive loop only as its last event: nothing follows the loop. */
  predicate Concludes(run: seq<Event>)
  {
    && |run| >= 1
    && (run[|run| - 1] == ConsumeForever || (run[|run| - 1].LogCall? && run[|run| - 1].level == ERROR))
    && (forall i :: 0 <= i < |run| - 1 ==> run[i] != ConsumeForever)
  }

  function ConnectFailureMessage(clientId: string, detail: string): string
  {
    "failed to connect: [client id = " + clientId + " , error = " + detail + "]"
  }

  /** What happens once the broker has answered the connect: the log of the
      outcome, the subscribe on a fresh session, and the receive loop. No
      second connect is made; the client subscribes iff the broker reports a
      fresh session; the receive loop is reached iff the connect succeeds and
      either the session was present or the subscribe succeeds, and otherwise
      the phase ends with the broker's error. */
  function BrokerPhase(c: Credentials, broker: Broker): (phase: seq<Event>)
    ensures |phase| >= 1
    ensures forall i :: 0 <= i < |phase| ==> !phase[i].MqttConnect?
    ensures (forall i :: 0 <= i < |phase| ==> !phase[i].MqttSubscribe?) <==> broker.connack != Success(false)
    ensures broker.connack.Success? ==> phase[0] == LogCall(INFO, "connect ok")
    ensures Concludes(phase)
    ensures (phase[|phase| - 1] == ConsumeForever)
              == (broker.connack.Success? && (broker.connack.value || broker.subscribeReply.Success?))
    ensures phase[|phase| - 1] != ConsumeForever ==>
              phase[|phase| - 1] == LogCall(ERROR, ConnectFailureMessage(c.deviceName,
                if broker.connack.Failure? then broker.connack.error else broker.subscribeReply.error))
  {
    match broker.connack
    case Failure(detail) => [LogCall(ERROR, ConnectFailureMessage(c.deviceName, detail))]
    case Success(sessionPresent) =>
      if !sessionPresent then
        var filters := SubscriptionFilters(c.productId, c.deviceName);
        var subscribing := [LogCall(INFO, "connect ok"), LogCall(INFO, "Subscribing to topics..."),
                            MqttSubscribe(filters, ZeroQos(|filters|))];
        var outcome := match broker.subscribeReply
          case Failure(detail) => [LogCall(ERROR, ConnectFailureMessage(c.deviceName, detail))]
          case Success(_) => [LogCall(INFO, "subscribe topics success"), ConsumeForever];
        assert (subscribing + outcome)[2].MqttSubscribe?;
        subscribing + outcome
      else
        [LogCall(INFO, "connect ok"), LogCall(INFO, "session already present. Skipping subscribe."),
         ConsumeForever]
  }

  function Options(c: Credentials, path: string, token: string): ConnectOptions
  {
    ConnectOptions(true, MqttVersion, path, c.productId, token)
  }

  /** The two debug records `BuildToken` writes once the secret has decoded:
      the string to sign over the expiry and the resource, and the base64
      HMAC of it under the decoded secret. */
  function TokenLogs(c: Credentials, b: Backends, nowTicks: int): (logs: seq<Event>)
    ensures |logs| == 0 <==> BuildToken(c, b, nowTicks) == Failure(DecodeSecretError)
    ensures |logs| > 0 ==>
              var pending := SigningString(ExpiryString(nowTicks), Resource(c));
              logs == [LogCall(DEBUG, "string to sign = " + pending),
                       LogCall(DEBUG, "signature = "
                                      + b.base64.encode(HmacSha1(b.mac, b.base64.decode(SigningSecret(c)), pending)))]
    ensures forall i :: 0 <= i < |logs| ==> logs[i].LogCall? && logs[i].level == DEBUG
  {
    var key := b.base64.decode(SigningSecret(c));
    if |key| == 0 then []
    else
      var plain := PlainFields(c, b, nowTicks, key);
      [LogCall(DEBUG, "string to sign = " + SigningString(plain.et, plain.res)),
       LogCall(DEBUG, "signature = " + plain.sign)]
  }

  /** What follows a written CA file: the token builder's records, then the
      token's error, or the token record, the connect and the broker phase. */
  function AfterCaFile(c: Credentials, b: Backends, nowTicks: int, path: string, broker: Broker): (events: seq<Event>)
    ensures Concludes(events)
  {
    Attempt(TokenLogs(c, b, nowTicks), BuildToken(c, b, nowTicks), c.deviceName, path, c, BrokerPhase(c, broker))
  }

  /** The token builder's records followed by the token's error, or by the
      token record, the connect and the broker phase. */
  function Attempt(logs: seq<Event>, token: Result<string, string>, clientId: string, path: string,
                   c: Credentials, phase: seq<Event>): (events: seq<Event>)
    requires forall i :: 0 <= i < |logs| ==> logs[i].LogCall?
    requires Concludes(phase)
    ensures Concludes(events)
  {
    logs
    + match token
      case Failure(e) => [LogCall(ERROR, "failed to connect: " + e)]
      case Success(t) =>
        [LogCall(DEBUG, "token = " + t), MqttConnect(ServerUrl, clientId, Options(c, path, t))] + phase
  }

  /** `Connect`: CA file first, then the token, then the network. The CA file
      is named after the millisecond clock and `created` says whether it could
      be created and opened; the token uses the nanosecond clock. The MQTT client's id is
      the device name. */
  function Connect(c: Credentials, b: Backends, nowTicks: int, nowMillis: int, created: bool,
                   broker: Broker): (trace: seq<Event>)
    ensures |trace| >= 2 && trace[0] == LogCall(INFO, "start connecting")
    ensures Concludes(trace)
  {
    var rest := CaFileOutcome(c, b, nowTicks, BuildCaFile(nowMillis, created), broker);
    EndsAsRest(LogCall(INFO, "start connecting"), rest);
    [LogCall(INFO, "start connecting")] + rest
  }

  /** What follows the CA file's creation: its error, or the rest of the attempt. */
  function CaFileOutcome(c: Credentials, b: Backends, nowTicks: int, caFile: Result<string, string>,
                         broker: Broker): (events: seq<Event>)
    ensures Concludes(events)
  {
    match caFile
    case Failure(e) => [LogCall(ERROR, "failed to create ca file: " + e)]
    case Success(path) => AfterCaFile(c, b, nowTicks, path, broker)
  }

  /** A first event other than the receive loop changes neither how a run
      ends nor whether it enters the receive loop. */
  lemma EndsAsRest(first: Event, rest: seq<Event>)
    requires first != ConsumeForever && Concludes(rest)
    ensures Concludes([first] + rest)
  {
    var run := [first] + rest;
    assert run[|run| - 1] == rest[|rest| - 1];
    assert forall i :: 1 <= i < |run| ==> run[i] == rest[i - 1];
  }

  // ---------------------------------------------------------------------------
  // Properties of Connect
  // ---------------------------------------------------------------------------

  /** The events of a trace that are calls to the MQTT client. */
  function NetworkCalls(trace: seq<Event>): (calls: seq<Event>)
    ensures forall e :: e in calls <==> e in trace && (e.MqttConnect? || e.MqttSubscribe?)
    ensures |calls| <= |trace|
  {
    if |trace| == 0 then []
    else
      var rest := NetworkCalls(trace[1..]);
      assert forall e :: e in trace <==> e == trace[0] || e in trace[1..];
      if trace[0].MqttConnect? || trace[0].MqttSubscribe? then [trace[0]] + rest else rest
  }

  lemma {:induction false} NetworkCallsAppend(a: seq<Event>, b: seq<Event>)
    ensures NetworkCalls(a + b) == NetworkCalls(a) + NetworkCalls(b)
    decreases |a|
  {
    if |a| == 0 {
      assert a + b == b;
    } else {
      assert (a + b)[1..] == a[1..] + b;
      NetworkCallsAppend(a[1..], b);
    }
  }

  /** A run of log records makes no network call. */
  lemma NoNetworkCallsInLogs(logs: seq<Event>)
    requires forall i :: 0 <= i < |logs| ==> logs[i].LogCall?
    ensures NetworkCalls(logs) == []
  {
  }

  /** A CA file failure ends the attempt before the token is built: the
      outcome is the same whatever the backends, the clocks and the broker,
      and the error text is the file builder's error behind the prefix. */
  lemma CaFailureAbortsFirst(c: Credentials, b1: Backends, b2: Backends, ticks1: int, ticks2: int,
                             ms1: int, ms2: int, broker1: Broker, broker2: Broker)
    ensures Connect(c, b1, ticks1, ms1, false, broker1) == Connect(c, b2, ticks2, ms2, false, broker2)
         == [LogCall(INFO, "start connecting"),
             LogCall(ERROR, "failed to create ca file: failed to create ca file")]
  {
    CaFailureTrace(c, b1, ticks1, ms1, broker1);
    CaFailureTrace(c, b2, ticks2, ms2, broker2);
  }

  /** An attempt whose CA file could not be written. */
  lemma CaFailureTrace(c: Credentials, b: Backends, nowTicks: int, nowMillis: int, broker: Broker)
    ensures Connect(c, b, nowTicks, nowMillis, false, broker)
         == [LogCall(INFO, "start connecting"),
             LogCall(ERROR, "failed to create ca file: failed to create ca file")]
  {
    CaFileErrorText();
  }

  /** The CA-file error behind its prefix. */
  lemma CaFileErrorText()
    ensures "failed to create ca file: " + "failed to create ca file"
         == "failed to create ca file: failed to create ca file"
  {
  }

  /** An attempt whose CA file was written. */
  lemma ConnectWithCaFile(c: Credentials, b: Backends, nowTicks: int, nowMillis: int, broker: Broker)
    ensures Connect(c, b, nowTicks, nowMillis, true, broker)
         == [LogCall(INFO, "start connecting")] + AfterCaFile(c, b, nowTicks, BuildCaFile(nowMillis, true).value, broker)
  {
  }

  /** A token failure ends the attempt before any network call, with the
      token's error in the last record. */
  lemma TokenFailureAbortsBeforeNetwork(c: Credentials, b: Backends, nowTicks: int, nowMillis: int,
                                        broker: Broker)
    requires BuildToken(c, b, nowTicks).Failure?
    ensures var trace := Connect(c, b, nowTicks, nowMillis, true, broker);
            && NetworkCalls(trace) == []
            && trace[|trace| - 1] == LogCall(ERROR, "failed to connect: " + BuildToken(c, b, nowTicks).error)
  {
    var last := LogCall(ERROR, "failed to connect: " + BuildToken(c, b, nowTicks).error);
    ConnectWithCaFile(c, b, nowTicks, nowMillis, broker);
    AfterCaFileWithoutToken(c, b, nowTicks, BuildCaFile(nowMillis, true).value, broker);
    LogsOnly([LogCall(INFO, "start connecting")], TokenLogs(c, b, nowTicks), last);
  }

  /** Without a token, the builder's records and the token's error follow the CA file. */
  lemma AfterCaFileWithoutToken(c: Credentials, b: Backends, nowTicks: int, path: string, broker: Broker)
    requires BuildToken(c, b, nowTicks).Failure?
    ensures AfterCaFile(c, b, nowTicks, path, broker)
         == TokenLogs(c, b, nowTicks) + [LogCall(ERROR, "failed to connect: " + BuildToken(c, b, nowTicks).error)]
  {
  }

  /** Log records around log records make no network call. */
  lemma LogsOnly(start: seq<Event>, logs: seq<Event>, last: Event)
    requires forall i :: 0 <= i < |start| ==> start[i].LogCall?
    requires forall i :: 0 <= i < |logs| ==> logs[i].LogCall?
    requires last.LogCall?
    ensures var trace := start + (logs + [last]);
            NetworkCalls(trace) == [] && trace[|trace| - 1] == last
  {
    var trace := start + (logs + [last]);
    assert forall i :: 0 <= i < |trace| ==> trace[i].LogCall?;
    NoNetworkCallsInLogs(trace);
  }

  /** The events of a successful attempt: the debug records of the token
      builder, the token, the connect with the CA file as trust store, then
      what the broker's answer leads to. */
  lemma TraceWithToken(c: Credentials, b: Backends, nowTicks: int, nowMillis: int, broker: Broker)
    requires BuildToken(c, b, nowTicks).Success?
    ensures var token := BuildToken(c, b, nowTicks).value;
            var path := BuildCaFile(nowMillis, true).value;
            && |TokenLogs(c, b, nowTicks)| == 2
            && Connect(c, b, nowTicks, nowMillis, true, broker)
                 == [LogCall(INFO, "start connecting")] + TokenLogs(c, b, nowTicks)
                    + [LogCall(DEBUG, "token = " + token),
                       MqttConnect(ServerUrl, c.deviceName, Options(c, path, token))]
                    + BrokerPhase(c, broker)
  {
    var token := BuildToken(c, b, nowTicks).value;
    var path := BuildCaFile(nowMillis, true).value;
    var logs := TokenLogs(c, b, nowTicks);
    AfterCaFileWithToken(c, b, nowTicks, path, broker);
    ConnectWithCaFile(c, b, nowTicks, nowMillis, broker);
    Regroup([LogCall(INFO, "start connecting")], logs,
            [LogCall(DEBUG, "token = " + token), MqttConnect(ServerUrl, c.deviceName, Options(c, path, token))],
            BrokerPhase(c, broker));
  }

  /** Concatenation regrouped from the right to the left. */
  lemma Regroup(a: seq<Event>, b: seq<Event>, c: seq<Event>, d: seq<Event>)
    ensures a + (b + (c + d)) == a + b + c + d
  {
  }

  /** With a token, the builder's two debug records, the token record, the
      connect and the broker phase follow the CA file. */
  lemma AfterCaFileWithToken(c: Credentials, b: Backends, nowTicks: int, path: string, broker: Broker)
    requires BuildToken(c, b, nowTicks).Success?
    ensures var token := BuildToken(c, b, nowTicks).value;
            && |TokenLogs(c, b, nowTicks)| == 2
            && AfterCaFile(c, b, nowTicks, path, broker)
                 == TokenLogs(c, b, nowTicks)
                    + ([LogCall(DEBUG, "token = " + token), MqttConnect(ServerUrl, c.deviceName, Options(c, path, token))]
                       + BrokerPhase(c, broker))
  {
  }

  /** The events of a successful attempt up to and including the connect:
      log records, at debug level except the start record, then the connect. */
  function BeforeBroker(c: Credentials, b: Backends, nowTicks: int, path: string, token: string): (head: seq<Event>)
    ensures |head| >= 1 && head[|head| - 1] == MqttConnect(ServerUrl, c.deviceName, Options(c, path, token))
    ensures forall i :: 0 <= i < |head| - 1 ==> head[i].LogCall?
    ensures forall e :: e in head ==> !e.MqttSubscribe? && e != ConsumeForever
    ensures forall e :: e in head && e.LogCall? && e.level != DEBUG ==> e == LogCall(INFO, "start connecting")
  {
    [LogCall(INFO, "start connecting")] + TokenLogs(c, b, nowTicks)
    + [LogCall(DEBUG, "token = " + token), MqttConnect(ServerUrl, c.deviceName, Options(c, path, token))]
  }

  /** A successful attempt as the events up to the connect, then the broker phase. */
  lemma ConnectShape(c: Credentials, b: Backends, nowTicks: int, nowMillis: int, broker: Broker)
    requires BuildToken(c, b, nowTicks).Success?
    ensures Connect(c, b, nowTicks, nowMillis, true, broker)
         == BeforeBroker(c, b, nowTicks, BuildCaFile(nowMillis, true).value, BuildToken(c, b, nowTicks).value)
            + BrokerPhase(c, broker)
  {
    TraceWithToken(c, b, nowTicks, nowMillis, broker);
  }

  /** Log records ending in one connect, then anything but a connect: the
      connect is the first network call and every later one is a subscribe. */
  lemma {:induction false} OneConnectThenSubscribes(head: seq<Event>, tail: seq<Event>)
    requires |head| >= 1 && head[|head| - 1].MqttConnect?
    requires forall i :: 0 <= i < |head| - 1 ==> head[i].LogCall?
    requires forall e :: e in tail ==> !e.MqttConnect?
    ensures var calls := NetworkCalls(head + tail);
            && |calls| >= 1 && calls[0] == head[|head| - 1]
            && (forall i :: 1 <= i < |calls| ==> calls[i].MqttSubscribe?)
  {
    var logs := head[..|head| - 1];
    var connect := head[|head| - 1];
    assert head + tail == logs + ([connect] + tail);
    NetworkCallsAppend(logs, [connect] + tail);
    NoNetworkCallsInLogs(logs);
    NetworkCallsAppend([connect], tail);
    assert NetworkCalls([connect]) == [connect] by {
      assert [connect][1..] == [];
    }
    var calls := NetworkCalls(head + tail);
    assert calls == [connect] + NetworkCalls(tail);
    forall i | 1 <= i < |calls|
      ensures calls[i].MqttSubscribe?
    {
      assert calls[i] in NetworkCalls(tail);
    }
  }

  /** With a CA file and a token, the client connects exactly once, to the
      fixed server as the device, with MQTT 3.1.1, automatic reconnect, the CA
      file as trust store, the product id as user name and the token as
      password; every later network call is a subscribe. */
  lemma ConnectsOnceWithToken(c: Credentials, b: Backends, nowTicks: int, nowMillis: int, broker: Broker)
    requires BuildToken(c, b, nowTicks).Success?
    ensures var token := BuildToken(c, b, nowTicks).value;
            var calls := NetworkCalls(Connect(c, b, nowTicks, nowMillis, true, broker));
            && |calls| >= 1
            && calls[0] == MqttConnect(ServerUrl, c.deviceName,
                             ConnectOptions(true, 4, BuildCaFile(nowMillis, true).value, c.productId, token))
            && (forall i :: 1 <= i < |calls| ==> calls[i].MqttSubscribe?)
  {
    var head := BeforeBroker(c, b, nowTicks, BuildCaFile(nowMillis, true).value, BuildToken(c, b, nowTicks).value);
    var tail := BrokerPhase(c, broker);
    ConnectShape(c, b, nowTicks, nowMillis, broker);
    assert forall e :: e in tail ==> !e.MqttConnect?;
    OneConnectThenSubscribes(head, tail);
  }

  /** Events without a subscribe, then a phase without one: the whole run
      has none, and ends as the phase does. */
  lemma {:induction false} NoSubscribeAcross(head: seq<Event>, tail: seq<Event>)
    requires forall e :: e in head ==> !e.MqttSubscribe?
    requires |tail| >= 1 && forall i :: 0 <= i < |tail| ==> !tail[i].MqttSubscribe?
    ensures var run := head + tail;
            && (forall i :: 0 <= i < |run| ==> !run[i].MqttSubscribe?)
            && run[|run| - 1] == tail[|tail| - 1]
  {
    var run := head + tail;
    forall i | 0 <= i < |run|
      ensures !run[i].MqttSubscribe?
    {
      if i < |head| {
        assert run[i] in head;
      } else {
        assert run[i] == tail[i - |head|];
      }
    }
  }

  /** On a resumed session the client never subscribes and goes straight to
      the receive loop. */
  lemma ResumedSessionSkipsSubscribe(c: Credentials, b: Backends, nowTicks: int, nowMillis: int,
                                     subscribeReply: Result<(), string>)
    requires BuildToken(c, b, nowTicks).Success?
    ensures var trace := Connect(c, b, nowTicks, nowMillis, true, Broker(Success(true), subscribeReply));
            && (forall i :: 0 <= i < |trace| ==> !trace[i].MqttSubscribe?)
            && trace[|trace| - 1] == ConsumeForever
  {
    var broker := Broker(Success(true), subscribeReply);
    var head := BeforeBroker(c, b, nowTicks, BuildCaFile(nowMillis, true).value, BuildToken(c, b, nowTicks).value);
    ConnectShape(c, b, nowTicks, nowMillis, broker);
    NoSubscribeAcross(head, BrokerPhase(c, broker));
  }

  /** On a fresh session the broker phase subscribes once, to the eight
      filters in order, each at QoS 0, and only a successful subscribe reaches
      the receive loop. */
  lemma FreshSessionPhase(c: Credentials, subscribeReply: Result<(), string>)
    ensures var tail := BrokerPhase(c, Broker(Success(false), subscribeReply));
            && |tail| >= 4
            && tail[2] == MqttSubscribe(SubscriptionFilters(c.productId, c.deviceName), ZeroQos(8))
            && (forall i :: 0 <= i < |tail| && i != 2 ==> !tail[i].MqttSubscribe?)
            && (forall i :: 0 <= i <= 2 ==> tail[i] != ConsumeForever)
            && (subscribeReply.Success? <==> tail[|tail| - 1] == ConsumeForever)
  {
  }

  /** Events with neither subscribe nor receive loop, then a phase with one
      subscribe at `k` and no receive loop up to it: the whole run has one
      subscribe, and no receive loop up to it, and ends as the phase does. */
  lemma {:induction false} SubscribeOnceAcross(head: seq<Event>, tail: seq<Event>, k: nat, subscribe: Event,
                                               loops: bool)
    requires forall e :: e in head ==> !e.MqttSubscribe? && e != ConsumeForever
    requires k < |tail| && tail[k] == subscribe
    requires forall i :: 0 <= i < |tail| && i != k ==> !tail[i].MqttSubscribe?
    requires forall i :: 0 <= i <= k ==> tail[i] != ConsumeForever
    requires loops <==> tail[|tail| - 1] == ConsumeForever
    ensures var trace := head + tail;
            exists j :: 0 <= j < |trace|
              && trace[j] == subscribe
              && (forall i :: 0 <= i < |trace| && i != j ==> !trace[i].MqttSubscribe?)
              && (forall i :: 0 <= i <= j ==> trace[i] != ConsumeForever)
              && (loops <==> trace[|trace| - 1] == ConsumeForever)
  {
    var trace := head + tail;
    var j := |head| + k;
    forall i | 0 <= i < |trace|
      ensures i < |head| ==> trace[i] in head
      ensures i >= |head| ==> trace[i] == tail[i - |head|]
    {
    }
    assert trace[j] == subscribe;
  }

  /** The session-presence rule on a fresh session, over the whole attempt:
      exactly one subscribe, before any receive loop. */
  lemma FreshSessionSubscribesOnce(c: Credentials, b: Backends, nowTicks: int, nowMillis: int,
                                   subscribeReply: Result<(), string>)
    requires BuildToken(c, b, nowTicks).Success?
    ensures var trace := Connect(c, b, nowTicks, nowMillis, true, Broker(Success(false), subscribeReply));
            exists k :: 0 <= k < |trace|
              && trace[k] == MqttSubscribe(SubscriptionFilters(c.productId, c.deviceName), ZeroQos(8))
              && (forall i :: 0 <= i < |trace| && i != k ==> !trace[i].MqttSubscribe?)
              && (forall i :: 0 <= i <= k ==> trace[i] != ConsumeForever)
              && (subscribeReply.Success? <==> trace[|trace| - 1] == ConsumeForever)
  {
    var broker := Broker(Success(false), subscribeReply);
    var head := BeforeBroker(c, b, nowTicks, BuildCaFile(nowMillis, true).value, BuildToken(c, b, nowTicks).value);
    ConnectShape(c, b, nowTicks, nowMillis, broker);
    FreshPhaseAfter(c, head, subscribeReply);
  }

  /** A fresh-session broker phase after events with neither subscribe nor
      receive loop. */
  lemma FreshPhaseAfter(c: Credentials, head: seq<Event>, subscribeReply: Result<(), string>)
    requires forall e :: e in head ==> !e.MqttSubscribe? && e != ConsumeForever
    ensures var trace := head + BrokerPhase(c, Broker(Success(false), subscribeReply));
            exists k :: 0 <= k < |trace|
              && trace[k] == MqttSubscribe(SubscriptionFilters(c.productId, c.deviceName), ZeroQos(8))
              && (forall i :: 0 <= i < |trace| && i != k ==> !trace[i].MqttSubscribe?)
              && (forall i :: 0 <= i <= k ==> trace[i] != ConsumeForever)
              && (subscribeReply.Success? <==> trace[|trace| - 1] == ConsumeForever)
  {
    var tail := BrokerPhase(c, Broker(Success(false), subscribeReply));
    FreshSessionPhase(c, subscribeReply);
    SubscribeOnceAcross(head, tail, 2, MqttSubscribe(SubscriptionFilters(c.productId, c.deviceName), ZeroQos(8)),
                        subscribeReply.Success?);
  }

  /** The texts a successful attempt may log above debug level: the fixed
      progress messages and the broker's error for this client. */
  ghost predicate RoutineMessage(clientId: string, m: string)
  {
    || m in {"start connecting", "connect ok", "Subscribing to topics...", "subscribe topics success",
             "session already present. Skipping subscribe."}
    || exists detail :: m == ConnectFailureMessage(clientId, detail)
  }

  /** No routine text starts with the `t` of `token = `. */
  lemma RoutineIsNotToken(clientId: string, m: string)
    requires RoutineMessage(clientId, m)
    ensures |m| > 0 && m[0] != 't'
  {
    if exists detail :: m == ConnectFailureMessage(clientId, detail) {
      var detail :| m == ConnectFailureMessage(clientId, detail);
      assert m[0] == 'f';
    }
  }

  /** Every record logged after the connect is above debug level and routine. */
  lemma BrokerPhaseRoutine(c: Credentials, broker: Broker)
    ensures forall e :: e in BrokerPhase(c, broker) && e.LogCall? ==>
              e.level != DEBUG && RoutineMessage(c.deviceName, e.message)
  {
    forall e | e in BrokerPhase(c, broker) && e.LogCall?
      ensures e.level != DEBUG && RoutineMessage(c.deviceName, e.message)
    {
      match broker.connack
      case Failure(detail) =>
        assert e.message == ConnectFailureMessage(c.deviceName, detail);
      case Success(sessionPresent) =>
        if !sessionPresent && broker.subscribeReply.Failure?
           && e == LogCall(ERROR, ConnectFailureMessage(c.deviceName, broker.subscribeReply.error)) {
          assert e.message == ConnectFailureMessage(c.deviceName, broker.subscribeReply.error);
        }
    }
  }

  /** Log records and routine records around other events: every record
      above debug level in the whole run is routine. */
  lemma {:induction false} RoutineAcross(clientId: string, head: seq<Event>, tail: seq<Event>)
    requires forall e :: e in head && e.LogCall? && e.level != DEBUG ==> e == LogCall(INFO, "start connecting")
    requires forall e :: e in tail && e.LogCall? ==> e.level != DEBUG && RoutineMessage(clientId, e.message)
    ensures forall e :: e in head + tail && e.LogCall? && e.level != DEBUG ==> RoutineMessage(clientId, e.message)
  {
    forall e | e in head + tail && e.LogCall? && e.level != DEBUG
      ensures RoutineMessage(clientId, e.message)
    {
      if e in head {
        assert e.message in {"start connecting"};
      }
    }
  }

  /** The three debug records of a successful attempt, in order after the
      start record. */
  lemma DebugRecordsOfAttempt(c: Credentials, b: Backends, nowTicks: int, nowMillis: int, broker: Broker)
    requires BuildToken(c, b, nowTicks).Success?
    ensures var trace := Connect(c, b, nowTicks, nowMillis, true, broker);
            var pending := SigningString(ExpiryString(nowTicks), Resource(c));
            && trace[1] == LogCall(DEBUG, "string to sign = " + pending)
            && trace[2] == LogCall(DEBUG, "signature = "
                                          + b.base64.encode(HmacSha1(b.mac, b.base64.decode(SigningSecret(c)), pending)))
            && trace[3] == LogCall(DEBUG, "token = " + BuildToken(c, b, nowTicks).value)
  {
    TraceWithToken(c, b, nowTicks, nowMillis, broker);
  }

  /** Every record above debug level in a successful attempt is routine. */
  lemma RoutineRecordsOfAttempt(c: Credentials, b: Backends, nowTicks: int, nowMillis: int, broker: Broker)
    requires BuildToken(c, b, nowTicks).Success?
    ensures forall e :: e in Connect(c, b, nowTicks, nowMillis, true, broker) && e.LogCall? && e.level != DEBUG
              ==> RoutineMessage(c.deviceName, e.message)
  {
    var head := BeforeBroker(c, b, nowTicks, BuildCaFile(nowMillis, true).value, BuildToken(c, b, nowTicks).value);
    var tail := BrokerPhase(c, broker);
    ConnectShape(c, b, nowTicks, nowMillis, broker);
    BrokerPhaseRoutine(c, broker);
    RoutineAcross(c.deviceName, head, tail);
  }

  /** The password, the string to sign and the signature are logged only at
      debug level, so the default logger never writes them. Every record above
      debug level holds a fixed progress text or the broker's error. */
  lemma SecretsNotWrittenByDefault(c: Credentials, b: Backends, nowTicks: int, nowMillis: int,
                                   broker: Broker, timestamp: string)
    requires BuildToken(c, b, nowTicks).Success?
    ensures var token := BuildToken(c, b, nowTicks).value;
            var trace := Connect(c, b, nowTicks, nowMillis, true, broker);
            var pending := SigningString(ExpiryString(nowTicks), Resource(c));
            var signature := b.base64.encode(HmacSha1(b.mac, b.base64.decode(SigningSecret(c)), pending));
            && trace[1] == LogCall(DEBUG, "string to sign = " + pending)
            && trace[2] == LogCall(DEBUG, "signature = " + signature)
            && trace[3] == LogCall(DEBUG, "token = " + token)
            && (forall e :: e in trace && e.LogCall? && e.level != DEBUG ==> RoutineMessage(c.deviceName, e.message))
            && (forall e :: e in trace && e.LogCall? && e.message == "token = " + token ==> e.level == DEBUG)
            && Log(DefaultLogger(), DEBUG, timestamp, "string to sign = " + pending) == None
            && Log(DefaultLogger(), DEBUG, timestamp, "signature = " + signature) == None
            && Log(DefaultLogger(), DEBUG, timestamp, "token = " + token) == None
  {
    var token := BuildToken(c, b, nowTicks).value;
    var trace := Connect(c, b, nowTicks, nowMillis, true, broker);
    DebugRecordsOfAttempt(c, b, nowTicks, nowMillis, broker);
    RoutineRecordsOfAttempt(c, b, nowTicks, nowMillis, broker);
    forall e | e in trace && e.LogCall? && e.message == "token = " + token
      ensures e.level == DEBUG
    {
      if e.level != DEBUG {
        RoutineIsNotToken(c.deviceName, e.message);
      }
    }
  }
}

=== FILE: text.dfy ===
/** String helpers the client relies on: splitting and joining on a separator,
    the decimal rendering of `std::to_string` for integers and its parser, and
    left-aligned padding as done by a `{:<N}` format field. */
module Text {
  import opened Wrappers

  predicate StartsWith(s: string, prefix: string) {
    |prefix| <= |s| && s[..|prefix|] == prefix
  }

  // ---------------------------------------------------------------------------
  // Splitting and joining
  // ---------------------------------------------------------------------------

  /** The pieces of `s` between occurrences of `sep`; always at least one piece. */
  function Split(s: string, sep: char): (parts: seq<string>)
    ensures |parts| >= 1
    ensures forall i :: 0 <= i < |parts| ==> sep !in parts[i]
    decreases |s|
  {
    if |s| == 0 then [""]
    else
      var rest := Split(s[1..], sep);
      if s[0] == sep then [""] + rest
      else [[s[0]] + rest[0]] + rest[1..]
  }

  /** The pieces joined with one `sep` between neighbours. */
  function Join(parts: seq<string>, sep: char): string
    requires |parts| >= 1
  {
    if |parts| == 1 then parts[0]
    else parts[0] + [sep] + Join(parts[1..], sep)
  }

  lemma JoinCons(x: string, rest: seq<string>, sep: char)
    requires |rest| >= 1
    ensures Join([x] + rest, sep) == x + [sep] + Join(rest, sep)
  {
    assert ([x] + rest)[1..] == rest;
  }

  lemma {:induction false} SplitWithoutSeparator(a: string, sep: char)
    requires sep !in a
    ensures Split(a, sep) == [a]
    decreases |a|
  {
    if |a| > 0 {
      SplitWithoutSeparator(a[1..], sep);
      assert [a[0]] + a[1..] == a;
    }
  }

  lemma {:induction false} SplitAtFirstSeparator(a: string, b: string, sep: char)
    requires sep !in a
    ensures Split(a + [sep] + b, sep) == [a] + Split(b, sep)
    decreases |a|
  {
    var s := a + [sep] + b;
    if |a| == 0 {
      assert s[1..] == b;
    } else {
      assert s[1..] == a[1..] + [sep] + b;
      SplitAtFirstSeparator(a[1..], b, sep);
      assert [a[0]] + a[1..] == a;
    }
  }

  /** Splitting undoes joining when no piece holds the separator. */
  lemma {:induction false} SplitJoin(parts: seq<string>, sep: char)
    requires |parts| >= 1
    requires forall i :: 0 <= i < |parts| ==> sep !in parts[i]
    ensures Split(Join(parts, sep), sep) == parts
    decreases |parts|
  {
    if |parts| == 1 {
      SplitWithoutSeparator(parts[0], sep);
    } else {
      SplitJoin(parts[1..], sep);
      SplitAtFirstSeparator(parts[0], Join(parts[1..], sep), sep);
      assert [parts[0]] + parts[1..] == parts;
    }
  }

  // ---------------------------------------------------------------------------
  // Decimal numbers (std::to_string on a signed integer)
  // ---------------------------------------------------------------------------

  predicate IsDigit(c: char) {
    '0' <= c <= '9'
  }

  predicate AllDigits(s: string) {
    forall i :: 0 <= i < |s| ==> IsDigit(s[i])
  }

  function DigitChar(d: int): (c: char)
    requires 0 <= d < 10
    ensures IsDigit(c)
  {
    ('0' as int + d) as char
  }

  /** Base-ten digits of `n`, most significant first, without leading zeros. */
  function NatToDecimal(n: nat): (s: string)
    ensures |s| >= 1 && AllDigits(s)
    ensures s[0] == '0' ==> n == 0
    decreases n
  {
    if n < 10 then [DigitChar(n)]
    else NatToDecimal(n / 10) + [DigitChar(n % 10)]
  }

  /** `std::to_string` of a signed integer: a minus sign, then the digits of the magnitude. */
  function IntToDecimal(n: int): string
  {
    if n < 0 then "-" + NatToDecimal(-n) else NatToDecimal(n)
  }

  /** The value of a string of digits read in base ten. */
  function DigitsValue(s: string): nat
    requires AllDigits(s)
    decreases |s|
  {
    if |s| == 0 then 0
    else DigitsValue(s[..|s| - 1]) * 10 + (s[|s| - 1] as int - '0' as int)
  }

  /** Reads an optional minus sign followed by at least one digit. */
  function ParseDecimal(s: string): Option<int>
  {
    if |s| >= 2 && s[0] == '-' && AllDigits(s[1..]) then Some(0 - DigitsValue(s[1..]) as int)
    else if |s| >= 1 && AllDigits(s) then Some(DigitsValue(s))
    else None
  }

  lemma {:induction false} NatToDecimalValue(n: nat)
    ensures DigitsValue(NatToDecimal(n)) == n
    decreases n
  {
    var s := NatToDecimal(n);
    if n >= 10 {
      NatToDecimalValue(n / 10);
      assert s[..|s| - 1] == NatToDecimal(n / 10);
    }
  }

  /** Parsing the rendering of any integer gives the integer back. */
  lemma DecimalRoundTrip(n: int)
    ensures ParseDecimal(IntToDecimal(n)) == Some(n)
  {
    if n < 0 {
      var d := NatToDecimal(-n);
      var s := "-" + d;
      NatToDecimalValue(-n);
      assert s[1..] == d;
      assert s[0] == '-' && |s| >= 2;
      assert ParseDecimal(s) == Some(0 - DigitsValue(d));
    } else {
      var d := NatToDecimal(n);
      NatToDecimalValue(n);
      assert IsDigit(d[0]);
      assert ParseDecimal(d) == Some(DigitsValue(d));
    }
  }

  // ---------------------------------------------------------------------------
  // Padding
  // ---------------------------------------------------------------------------

  /** `s` left-aligned in a field of `width` characters, filled with spaces. */
  function PadRight(s: string, width: nat): (r: string)
    ensures |r| == if |s| >= width then |s| else width
    ensures r[..|s|] == s
    ensures forall i :: |s| <= i < |r| ==> r[i] == ' '
  {
    if |s| >= width then s else s + seq(width - |s|, _ => ' ')
  }

  /** `s` without its trailing spaces. */
  function TrimRight(s: string): (r: string)
    ensures |r| <= |s| && r == s[..|r|]
    ensures |r| == 0 || r[|r| - 1] != ' '
    ensures forall i :: |r| <= i < |s| ==> s[i] == ' '
    decreases |s|
  {
    if |s| > 0 && s[|s| - 1] == ' ' then TrimRight(s[..|s| - 1]) else s
  }

  /** Trimming undoes padding of a string that does not end in a space. */
  lemma TrimPadRight(s: string, width: nat)
    requires |s| == 0 || s[|s| - 1] != ' '
    ensures TrimRight(PadRight(s, width)) == s
  {
  }
}

=== FILE: token.dfy ===
/** The OneNET access-token builder. From the current time, the auth scope,
    the product and device ids and their base64 secrets it builds the signing
    string `et\nsha1\nres\n2018-10-31`, signs it with HMAC-SHA1, base64-encodes
    the digest and percent-encodes the five token fields, all or nothing.

    The base64 codec, the URL codec and the HMAC primitive are injected
    capabilities (the client receives them as `Base64` and `UrlUtil` objects,
    and calls OpenSSL for HMAC); each is a total function value here, so the
    model holds for every implementation of them. */
module Token {
  import opened Wrappers
  import opened Text

  // ---------------------------------------------------------------------------
  // Injected capabilities
  // ---------------------------------------------------------------------------

  /** `Base64`: encoding never fails; decoding returns no bytes on failure. */
  datatype Base64Codec = Base64Codec(encode: seq<byte> -> string, decode: string -> seq<byte>)

  /** `UrlUtil`: percent-encoding and decoding, each of which may fail. */
  datatype UrlCodec = UrlCodec(
    escape: string -> Result<string, string>,
    unescape: string -> Result<string, string>)

  /** The bytes `HMAC(EVP_sha1(), key, message)` writes into its output buffer. */
  type HmacPrimitive = (seq<byte>, string) -> seq<byte>

  datatype Backends = Backends(base64: Base64Codec, url: UrlCodec, mac: HmacPrimitive)

  /** The client's credentials, fixed at construction. */
  datatype Credentials = Credentials(
    deviceLevelAuth: bool,
    productId: string,
    productSecret: string,
    deviceName: string,
    deviceSecret: string)

  // ---------------------------------------------------------------------------
  // Constants of the signing scheme
  // ---------------------------------------------------------------------------

  const SigningMethod := "sha1"
  const SigningAlgVersion := "2018-10-31"
  const Sha1DigestLength := 20

  /** The token lifetime: 8760 hours. */
  const ValidityHours := 8760
  const ValiditySeconds := ValidityHours * 3600

  /** `system_clock` ticks per second (its duration is nanoseconds). */
  const TicksPerSecond := 1_000_000_000

  const DecodeSecretError := "failed to decode secret"
  const UrlEscapeError := "failed to do url escape"

  // ---------------------------------------------------------------------------
  // Expiry
  // ---------------------------------------------------------------------------

  /** Integer division rounding toward zero, as `duration_cast` does. */
  function TruncDiv(a: int, b: int): (q: int)
    requires b > 0
    ensures a >= 0 ==> 0 <= a - q * b < b
    ensures a < 0 ==> 0 <= q * b - a < b
  {
    if a >= 0 then a / b else -((-a) / b)
  }

  /** Expiry in whole seconds since the epoch: `now` plus 8760 hours, cut to
      seconds. For any time after the epoch (indeed, up to one year before
      it) that is the current second plus 31 536 000. */
  function ExpirySeconds(nowTicks: int): (secs: int)
    ensures nowTicks + ValiditySeconds * TicksPerSecond >= 0 ==>
              secs == nowTicks / TicksPerSecond + 31_536_000
  {
    var k := ValiditySeconds;
    var b := TicksPerSecond;
    var a := nowTicks + k * b;
    if a >= 0 then
      var q := nowTicks / b;
      var r := nowTicks % b;
      assert a == (q + k) * b + r;
      LemmaDivUnique(a, b, q + k, r);
      TruncDiv(a, b)
    else
      TruncDiv(a, b)
  }

  lemma LemmaDivUnique(a: int, b: int, q: int, r: int)
    requires b > 0 && 0 <= r < b && a == q * b + r
    ensures a / b == q
  {
    var d := q - a / b;
    assert d * b == a % b - r;
    assert -b < d * b < b;
  }

  /** `et`: the expiry rendered by `std::to_string`. */
  function ExpiryString(nowTicks: int): (et: string)
    ensures ParseDecimal(et) == Some(ExpirySeconds(nowTicks))
  {
    DecimalRoundTrip(ExpirySeconds(nowTicks));
    IntToDecimal(ExpirySeconds(nowTicks))
  }

  // ---------------------------------------------------------------------------
  // Resource, secret and signing string
  // ---------------------------------------------------------------------------

  /** The resource the token grants access to. */
  function Resource(c: Credentials): (res: string)
    ensures StartsWith(res, "products/" + c.productId)
  {
    if c.deviceLevelAuth then "products/" + c.productId + "/devices/" + c.deviceName
    else "products/" + c.productId
  }

  /** Read back along `/`, the resource names the product, and the device
      exactly when device-level auth is on (for ids without a `/`). */
  lemma ResourceFields(c: Credentials)
    requires '/' !in c.productId && '/' !in c.deviceName
    ensures c.deviceLevelAuth ==>
              Split(Resource(c), '/') == ["products", c.productId, "devices", c.deviceName]
    ensures !c.deviceLevelAuth ==> Split(Resource(c), '/') == ["products", c.productId]
  {
    if c.deviceLevelAuth {
      DeviceResourceFields(c.productId, c.deviceName);
    } else {
      ProductResourceFields(c.productId);
    }
  }

  lemma DeviceResourceFields(p: string, d: string)
    requires '/' !in p && '/' !in d
    ensures Split("products/" + p + "/devices/" + d, '/') == ["products", p, "devices", d]
  {
    var parts := ["products", p, "devices", d];
    JoinCons("products", [p, "devices", d], '/');
    JoinCons(p, ["devices", d], '/');
    JoinCons("devices", [d], '/');
    assert "products/" + p + "/devices/" + d == Join(parts, '/') by {
      assert "products/" == "products" + "/";
      assert "/devices/" == "/" + "devices" + "/";
    }
    SplitJoin(parts, '/');
  }

  lemma ProductResourceFields(p: string)
    requires '/' !in p
    ensures Split("products/" + p, '/') == ["products", p]
  {
    JoinCons("products", [p], '/');
    assert "products/" == "products" + "/";
    SplitJoin(["products", p], '/');
  }

  /** The secret the token is signed with, in its base64 storage form. */
  function SigningSecret(c: Credentials): (secret: string)
    ensures c.deviceLevelAuth ==> secret == c.deviceSecret
    ensures !c.deviceLevelAuth ==> secret == c.productSecret
  {
    if c.deviceLevelAuth then c.deviceSecret else c.productSecret
  }

  /** Four lines joined with newlines split back into those four lines. */
  lemma {:induction false} FourLines(a: string, b: string, c: string, d: string)
    requires '\n' !in a && '\n' !in b && '\n' !in c && '\n' !in d
    ensures Split(a + "\n" + b + "\n" + c + "\n" + d, '\n') == [a, b, c, d]
  {
    JoinCons(a, [b, c, d], '\n');
    JoinCons(b, [c, d], '\n');
    JoinCons(c, [d], '\n');
    assert a + "\n" + b + "\n" + c + "\n" + d == Join([a, b, c, d], '\n');
    SplitJoin([a, b, c, d], '\n');
  }

  /** The string to sign: expiry, method, resource and version, one per line. */
  function SigningString(et: string, res: string): (pending: string)
    ensures '\n' !in et && '\n' !in res ==>
              Split(pending, '\n') == [et, SigningMethod, res, SigningAlgVersion]
  {
    var pending := et + "\n" + SigningMethod + "\n" + res + "\n" + SigningAlgVersion;
    if '\n' in et || '\n' in res then pending
    else
      FourLines(et, SigningMethod, res, SigningAlgVersion);
      pending
  }

  /** The rendered expiry is a single line. */
  lemma ExpiryStringIsOneLine(nowTicks: int)
    ensures '\n' !in ExpiryString(nowTicks)
  {
    var et := ExpiryString(nowTicks);
    var secs := ExpirySeconds(nowTicks);
    if secs < 0 {
      assert et == "-" + NatToDecimal(-secs);
      assert forall k :: 1 <= k < |et| ==> et[k] == NatToDecimal(-secs)[k - 1];
    }
  }

  /** The signing string reads back as its four lines when the resource is a
      single line. */
  lemma SigningStringFields(nowTicks: int, c: Credentials)
    requires '\n' !in c.productId && '\n' !in c.deviceName
    ensures Split(SigningString(ExpiryString(nowTicks), Resource(c)), '\n')
         == [ExpiryString(nowTicks), SigningMethod, Resource(c), SigningAlgVersion]
  {
    ExpiryStringIsOneLine(nowTicks);
    assert '\n' !in Resource(c);
  }

  /** `HmacSha1`: a 20-byte buffer, zero-initialised, into which the HMAC
      primitive writes its output. */
  function HmacSha1(mac: HmacPrimitive, key: seq<byte>, message: string): (digest: seq<byte>)
    ensures |digest| == Sha1DigestLength
    ensures |mac(key, message)| == Sha1DigestLength ==> digest == mac(key, message)
  {
    var raw := mac(key, message);
    seq(Sha1DigestLength, i requires 0 <= i < Sha1DigestLength =>
      if i < |raw| then raw[i] else 0)
  }

  // ---------------------------------------------------------------------------
  // Token fields and their layout
  // ---------------------------------------------------------------------------

  datatype TokenFields = TokenFields(version: string, res: string, et: string, signingMethod: string, sign: string)

  predicate NoAmpersand(f: TokenFields) {
    '&' !in f.version && '&' !in f.res && '&' !in f.et && '&' !in f.signingMethod && '&' !in f.sign
  }

  /** The value of `key=value`, if `part` has that shape. */
  function FieldValue(part: string, key: string): Option<string>
  {
    var prefix := key + "=";
    if StartsWith(part, prefix) then Some(part[|prefix|..]) else None
  }

  /** Reads the five fields back out of a token. */
  function ParseToken(token: string): Option<TokenFields>
  {
    var parts := Split(token, '&');
    if |parts| != 5 then None
    else
      var v := FieldValue(parts[0], "version");
      var r := FieldValue(parts[1], "res");
      var e := FieldValue(parts[2], "et");
      var m := FieldValue(parts[3], "method");
      var s := FieldValue(parts[4], "sign");
      if v.Some? && r.Some? && e.Some? && m.Some? && s.Some? then
        Some(TokenFields(v.value, r.value, e.value, m.value, s.value))
      else None
  }

  lemma FieldValueOf(key: string, value: string)
    ensures FieldValue(key + "=" + value, key) == Some(value)
  {
    assert (key + "=" + value)[..|key + "="|] == key + "=";
    assert (key + "=" + value)[|key + "="|..] == value;
  }

  function TokenParts(f: TokenFields): seq<string>
  {
    ["version=" + f.version, "res=" + f.res, "et=" + f.et, "method=" + f.signingMethod, "sign=" + f.sign]
  }

  /** Five parts joined with a separator. */
  lemma JoinFive(p0: string, p1: string, p2: string, p3: string, p4: string, sep: char)
    ensures Join([p0, p1, p2, p3, p4], sep) == p0 + ([sep] + p1) + ([sep] + p2) + ([sep] + p3) + ([sep] + p4)
  {
    JoinCons(p3, [p4], sep);
    assert [p3] + [p4] == [p3, p4];
    JoinCons(p2, [p3, p4], sep);
    assert [p2] + [p3, p4] == [p2, p3, p4];
    JoinCons(p1, [p2, p3, p4], sep);
    assert [p1] + [p2, p3, p4] == [p1, p2, p3, p4];
    JoinCons(p0, [p1, p2, p3, p4], sep);
    assert [p0] + [p1, p2, p3, p4] == [p0, p1, p2, p3, p4];
  }

  /** One separated `key=value` part appended to a prefix. */
  lemma AppendPart(prefix: string, sep: char, key: string, value: string, sepKey: string)
    requires sepKey == [sep] + key
    ensures prefix + ([sep] + (key + value)) == prefix + sepKey + value
  {
  }

  /** The five `key=value` parts joined with `&` spell the token layout. */
  lemma JoinTokenParts(f: TokenFields)
    ensures Join(TokenParts(f), '&')
         == "version=" + f.version + "&res=" + f.res + "&et=" + f.et + "&method=" + f.signingMethod + "&sign=" + f.sign
  {
    JoinFive("version=" + f.version, "res=" + f.res, "et=" + f.et, "method=" + f.signingMethod, "sign=" + f.sign, '&');
    var s0 := "version=" + f.version;
    AppendPart(s0, '&', "res=", f.res, "&res=");
    var s1 := s0 + "&res=" + f.res;
    AppendPart(s1, '&', "et=", f.et, "&et=");
    var s2 := s1 + "&et=" + f.et;
    AppendPart(s2, '&', "method=", f.signingMethod, "&method=");
    var s3 := s2 + "&method=" + f.signingMethod;
    AppendPart(s3, '&', "sign=", f.sign, "&sign=");
  }

  /** Split on `&`, the joined parts give back fields that hold no `&`. */
  lemma ParseTokenParts(f: TokenFields)
    ensures NoAmpersand(f) ==> ParseToken(Join(TokenParts(f), '&')) == Some(f)
  {
    if NoAmpersand(f) {
      SplitJoin(TokenParts(f), '&');
      FieldValueOf("version", f.version);
      FieldValueOf("res", f.res);
      FieldValueOf("et", f.et);
      FieldValueOf("method", f.signingMethod);
      FieldValueOf("sign", f.sign);
    }
  }

  /** The query-string token. One whose fields hold no `&` reads back as
      exactly those fields. */
  function FormatToken(f: TokenFields): (token: string)
    ensures NoAmpersand(f) ==> ParseToken(token) == Some(f)
  {
    JoinTokenParts(f);
    ParseTokenParts(f);
    "version=" + f.version + "&res=" + f.res + "&et=" + f.et + "&method=" + f.signingMethod + "&sign=" + f.sign
  }

  /** Percent-encodes all five fields, or fails as a whole if any one fails. */
  function EscapeFields(url: UrlCodec, f: TokenFields): (r: Result<TokenFields, string>)
    ensures r.Success? <==>
              url.escape(f.version).Success? && url.escape(f.res).Success? && url.escape(f.et).Success?
              && url.escape(f.signingMethod).Success? && url.escape(f.sign).Success?
    ensures r.Failure? ==> r.error == UrlEscapeError
    ensures r.Success? ==>
              r.value == TokenFields(url.escape(f.version).value, url.escape(f.res).value,
                                     url.escape(f.et).value, url.escape(f.signingMethod).value,
                                     url.escape(f.sign).value)
  {
    var v := url.escape(f.version);
    var r := url.escape(f.res);
    var e := url.escape(f.et);
    var m := url.escape(f.signingMethod);
    var s := url.escape(f.sign);
    if v.Failure? || r.Failure? || e.Failure? || m.Failure? || s.Failure? then Failure(UrlEscapeError)
    else Success(TokenFields(v.value, r.value, e.value, m.value, s.value))
  }

  /** Percent-decodes all five fields (the reading direction). */
  function UnescapeFields(url: UrlCodec, f: TokenFields): Result<TokenFields, string>
  {
    var v := url.unescape(f.version);
    var r := url.unescape(f.res);
    var e := url.unescape(f.et);
    var m := url.unescape(f.signingMethod);
    var s := url.unescape(f.sign);
    if v.Failure? || r.Failure? || e.Failure? || m.Failure? || s.Failure? then Failure("failed to do url unescape")
    else Success(TokenFields(v.value, r.value, e.value, m.value, s.value))
  }

  /** A URL codec that escapes `&` and whose decoding undoes its encoding, as
      percent-encoding per section 2.1 of RFC 3986 does. */
  ghost predicate WellBehaved(url: UrlCodec) {
    forall s :: url.escape(s).Success? ==>
      '&' !in url.escape(s).value && url.unescape(url.escape(s).value) == Success(s)
  }

  // ---------------------------------------------------------------------------
  // BuildToken
  // ---------------------------------------------------------------------------

  /** The fields of the token before percent-encoding. */
  function PlainFields(c: Credentials, b: Backends, nowTicks: int, key: seq<byte>): TokenFields
  {
    var et := ExpiryString(nowTicks);
    var res := Resource(c);
    var signature := b.base64.encode(HmacSha1(b.mac, key, SigningString(et, res)));
    TokenFields(SigningAlgVersion, res, et, SigningMethod, signature)
  }

  /** `BuildToken`: the signed access token, or one of its two errors. */
  function BuildToken(c: Credentials, b: Backends, nowTicks: int): (r: Result<string, string>)
    ensures var key := b.base64.decode(if c.deviceLevelAuth then c.deviceSecret else c.productSecret);
            && (r == Failure(DecodeSecretError) <==> |key| == 0)
            && (r == Failure(UrlEscapeError) <==>
                  |key| > 0 && EscapeFields(b.url, PlainFields(c, b, nowTicks, key)).Failure?)
            && (r.Success? ==>
                  var et := IntToDecimal(ExpirySeconds(nowTicks));
                  var res := if c.deviceLevelAuth then "products/" + c.productId + "/devices/" + c.deviceName
                             else "products/" + c.productId;
                  var pending := et + "\n" + "sha1" + "\n" + res + "\n" + "2018-10-31";
                  var sign := b.base64.encode(HmacSha1(b.mac, key, pending));
                  r.value == "version=" + b.url.escape("2018-10-31").value
                             + "&res=" + b.url.escape(res).value
                             + "&et=" + b.url.escape(et).value
                             + "&method=" + b.url.escape("sha1").value
                             + "&sign=" + b.url.escape(sign).value)
    ensures r.Failure? ==> r.error == DecodeSecretError || r.error == UrlEscapeError
  {
    var key := b.base64.decode(SigningSecret(c));
    if |key| == 0 then Failure(DecodeSecretError)
    else
      match EscapeFields(b.url, PlainFields(c, b, nowTicks, key))
      case Failure(e) => Failure(e)
      case Success(f) => Success(FormatToken(f))
  }

  /** When the secret decodes to nothing, neither the HMAC primitive nor the
      URL codec has any say in the outcome. */
  lemma DecodeFailureShortCircuits(c: Credentials, b1: Backends, b2: Backends, now1: int, now2: int)
    requires b1.base64.decode == b2.base64.decode
    requires |b1.base64.decode(SigningSecret(c))| == 0
    ensures BuildToken(c, b1, now1) == BuildToken(c, b2, now2) == Failure(DecodeSecretError)
  {
  }

  /** The token depends on the clock only through the expiry second. */
  lemma TokenDependsOnExpirySecond(c: Credentials, b: Backends, now1: int, now2: int)
    requires ExpirySeconds(now1) == ExpirySeconds(now2)
    ensures BuildToken(c, b, now1) == BuildToken(c, b, now2)
  {
  }

  /** With a well-behaved URL codec, a built token reads back, field by field
      and after percent-decoding, as the version, the resource, the expiry
      second, the method and the base64 signature over the signing string. */
  lemma TokenRoundTrip(c: Credentials, b: Backends, nowTicks: int)
    requires WellBehaved(b.url)
    requires BuildToken(c, b, nowTicks).Success?
    ensures var key := b.base64.decode(SigningSecret(c));
            var parsed := ParseToken(BuildToken(c, b, nowTicks).value);
            && parsed.Some?
            && UnescapeFields(b.url, parsed.value) == Success(PlainFields(c, b, nowTicks, key))
            && ParseDecimal(PlainFields(c, b, nowTicks, key).et) == Some(ExpirySeconds(nowTicks))
            && PlainFields(c, b, nowTicks, key).res == Resource(c)
  {
    var key := b.base64.decode(SigningSecret(c));
    var plain := PlainFields(c, b, nowTicks, key);
    var escaped := EscapeFields(b.url, plain);
    assert escaped.Success?;
    var f := escaped.value;
    assert NoAmpersand(f);
  }
}

=== FILE: wrappers.dfy ===
/** Failure-carrying datatypes shared by the whole model: `Option` stands for a
    nullable pointer or an optional value, `Result` for `tl::expected<T, E>` and
    for a call that either returns or throws. */
module Wrappers {

  datatype Option<+T> = None | Some(value: T)

  datatype Result<+R, +E> = Success(value: R) | Failure(error: E)

  /** An unsigned byte, the element of `std::vector<unsigned char>`. */
  newtype byte = x: int | 0 <= x < 256
}
